=== FILE: README.md ===
# nlm batchexecute core, modelled in Dafny

`nlm` is a command-line client for NotebookLM. It talks to Google's
"batchexecute" RPC endpoint. This project models the wire-protocol core of that
client and proves properties of the model. The core has four parts:

- **Request side.** The per-call tuple `[id, json(args), null, "generic"]` and
  the `f.req` envelope. The query parameters and their precedence: client-level
  params, then the first call's params, then `rt=c` and `_reqid`. The `_reqid`
  counter `ReqIDGenerator` is a class with a `sequence` field that `Next` and
  `Reset` update.
- **Response side.** The `)]}'` prefix is stripped. The chunked framing is a
  length line parsed by `strconv.ParseInt(.., 16, 64)` followed by exactly that
  many bytes. A chunk is parsed as rows, or else as a JSON string that holds the
  rows. The single-array variant is the fallback. The `wrb.fr` row filter keeps
  rows with at least 7 elements; each kept row gives an id, a payload and an
  index. `Execute` chooses between the two decoders and classifies a 401 reply
  as unauthorized.
- **Positional protobuf decoder (`beprotojson`).** The element at position `i`
  sets field `i+1`, dispatched by kind (repeated, message, scalar). It also
  covers:
  - nested messages;
  - the wrapper-type shortcut and single-value flattening;
  - string unwrapping from nested arrays;
  - enums by number or by name;
  - the `DiscardUnknown` and `AllowPartial` options.

  Protobuf reflection becomes an explicit schema:
  - a `Registry` from type names to `Field` descriptors;
  - messages as `map<nat, Value>`;
  - `proto.CheckInitialized` as the `Initialized` predicate.

  The decoder exists twice. It is stated as pure functions in `ProtoJson`. It is
  also run step by step, as the Go code runs it, in `ProtoJsonDecoder`. There a
  `Message` object's `values` are updated in place, and every method is proved
  to compute what the function computes.
- **RPC and API layers.**
  - `rpc.Client.Do` copies the shared URL parameters and adds `source-path`.
  - The stub methods are modelled as they are.
  - `extractSourceID` has three formats.
  - The audio-overview and share-result readers are modelled, including the
    checks the API methods make before they send a call.
  - `isYouTubeURL` is modelled.

JSON is a `Json` datatype whose numbers are integers. The JSON text conversions
of `encoding/json` are an abstract `Codec` of three total functions:
- `unmarshal`, a whole text;
- `decodeFirst`, the first value of a stream;
- `marshal`.

`Lawful(c)` states the round trip. It is assumed only where a lemma names it.
`encoding/json` decodes an object into a Go map and writes its keys sorted,
so member order and duplicate keys do not survive. Go is a lawful codec only
for values without objects, and the lemmas that assume `Lawful`
(`Requests.FReqRoundTrip`, `Responses.QuotedChunk`,
`Responses.PlainBodyDecodes`) describe Go for those values.
Byte strings are `string`, one character per byte. The HTTP exchange is a
function parameter `exchange: HttpRequest -> HttpReply`. Each client method
returns the request it handed over, so its contract can state what was sent.

Files: `wrappers.dfy`, `json.dfy`, `golib.dfy` (the `strings`/`strconv`
behaviour the core depends on), `reqid.dfy`, `request.dfy`, `response.dfy`,
`client.dfy`, `rpc.dfy`, `api.dfy`, `protojson.dfy`, `protodecode.dfy`.

The format is commonly described with a decimal length line. The code parses
it in base 16, and the model follows the code
(`Responses.LengthIsHexadecimal`: the line "105" announces 0x105 bytes).

## Model

| member | source | states |
|---|---|---|
| GoLib.TrimPrefix | internal/batchexecute/batchexecute.go:197 | the prefix is removed exactly when the text starts with it; otherwise the text is unchanged |
| GoLib.TrimSpace | internal/batchexecute/batchexecute.go:245 | the result is an infix of the input with only white space before and after it, and it neither starts nor ends with white space, so it is the input with its surrounding white space removed; it is empty exactly when the input is all white space |
| GoLib.Contains | internal/api/client.go:869 | true exactly when the substring occurs at some offset |
| GoLib.ParseInt | internal/batchexecute/batchexecute.go:269 | the value is always an int64; a syntax error yields 0; the empty string is a syntax error; an unsigned success is non-negative |
| GoLib.ParseFormatInt | internal/batchexecute/batchexecute.go:269 | ParseInt reads back, without error, every int64 that FormatInt writes, in base 10 or 16 |
| GoLib.FormatInt | internal/batchexecute/batchexecute.go:599 | the text is never empty and starts with a minus sign exactly for a negative number; its digits are fixed by ParseFormatInt, which reads every int64 back |
| GoLib.Itoa | internal/batchexecute/batchexecute.go:599 | the decimal text starts with a minus sign exactly for a negative number, and ParseInt in base 10 reads every int64 back from it without error (so AtoiItoa holds) |
| GoLib.Atoi | internal/batchexecute/batchexecute.go:388 | Atoi with its error discarded always yields an int64 |
| GoLib.AtoiItoa | internal/batchexecute/batchexecute.go:597-599 | Atoi inverts Itoa on every int64 |
| GoLib.SetAll | internal/batchexecute/batchexecute.go:88-95 | after copying, every key of the copied map has that map's value, the other keys keep theirs, and no other key appears, whatever the iteration order |
| ReqIds.ReqIdGenerator.constructor | internal/batchexecute/batchexecute.go:581-591 | a new generator has a four-digit base and sequence 0 |
| ReqIds.ReqIdGenerator.Next | internal/batchexecute/batchexecute.go:594-600 | returns the decimal text of base + sequence*100000 for the sequence before the call, and advances sequence by exactly 1; the four-digit base is kept, and the id read back gives the base as remainder and the old sequence as quotient |
| ReqIds.ReqIdGenerator.Reset | internal/batchexecute/batchexecute.go:603-607 | sequence is 0 again and the four-digit base is kept |
| ReqIds.IdsIncrease | internal/batchexecute/batchexecute.go:597-598 | ids k-j calls apart differ by (k-j)*100000, so successive ids strictly increase |
| ReqIds.IdDecodes | internal/batchexecute/batchexecute.go:597-599 | read back with Atoi, an id gives the base as its remainder mod 100000 and the sequence number as its quotient |
| ReqIds.ResetRestartsSequence | internal/batchexecute/batchexecute.go:594-607 | after two ids and a Reset, the next id equals the first one, the base |
| Requests.Envelope | internal/batchexecute/batchexecute.go:107-110 | one tuple per call |
| Requests.RpcData | internal/batchexecute/batchexecute.go:61-71 | a call becomes a four-element array whose element 1 is a string; with a lawful codec that string parses back to the call's arguments (the whole tuple `[id, args, null, "generic"]` is the definition, read back in FReqRoundTrip) |
| Requests.BuildEnvelope | internal/batchexecute/batchexecute.go:107-110 | the appending loop yields the tuple of call i at position i, for every call, in order |
| Requests.FormBody | internal/batchexecute/batchexecute.go:112-119 | the form has exactly the keys `f.req` and `at`, and `at` is the auth token |
| Requests.FReqRoundTrip | internal/batchexecute/batchexecute.go:61-71 | with a lawful codec, `f.req` parses back to one array that holds the envelope; each tuple is `[id, text, null, "generic"]`, and its text parses back to the call's arguments |
| Requests.BuildQuery | internal/batchexecute/batchexecute.go:84-99 | the query has exactly the keys rpcids, rt, _reqid, the client's keys and the first call's keys; rt is "c" and _reqid is the fresh id; any other key takes the first call's value, else the client's, else (rpcids only) the first call's id |
| Requests.QueryPrecedence | internal/batchexecute/batchexecute.go:88-98 | a key both sides set takes the first call's value, and a client-level `rt` never survives |
| JsonValue.AsList | internal/beprotojson/beprotojson.go:47-50 | decoding into a list succeeds exactly for `null` (the empty list) and arrays (their items) |
| Responses.AsRows | internal/batchexecute/batchexecute.go:300-301 | decoding into rows succeeds for `null` as no rows; an array decodes exactly when every element is an array or `null`, and then row i holds the members of element i (none for `null`); nothing else decodes |
| Responses.RowIndex | internal/batchexecute/batchexecute.go:384-389 | "generic" or a non-string gives index 0; any index is an int64 |
| Responses.RowIndexDecimal | internal/batchexecute/batchexecute.go:384-389 | an index written as the decimal text of an int64 is read back exactly |
| Responses.ItoaIsNotGeneric | internal/batchexecute/batchexecute.go:385 | no int64 prints as "generic", so the two index branches never overlap |
| Responses.PlainRow | internal/batchexecute/batchexecute.go:207-233 | the single-array variant keeps a row exactly when it has at least 7 elements and element 0 is "wrb.fr" |
| Responses.ChunkPayload | internal/batchexecute/batchexecute.go:350-382 | a string payload is dropped exactly when it does not parse; otherwise it is the re-encoding of what it parses to; a non-string keeps the row with an empty payload |
| Responses.UnescapeNeverRescues | internal/batchexecute/batchexecute.go:355-370 | when the direct parse of a payload fails, the unescape-then-parse attempt fails too |
| Responses.ChunkRow | internal/batchexecute/batchexecute.go:330-391 | the chunked variant keeps a row exactly when it is a call row whose payload is not dropped |
| Responses.ReadRow | internal/batchexecute/batchexecute.go:207-214 | only call rows ever produce a response |
| Responses.Collect | internal/batchexecute/batchexecute.go:330-392 | never more responses than rows |
| Responses.CollectAppend | internal/batchexecute/batchexecute.go:330-392 | collecting distributes over concatenation, so kept rows stay in input order |
| Responses.CollectSound | internal/batchexecute/batchexecute.go:207-233 | every collected response is what some input row reads as |
| Responses.DecodePlain | internal/batchexecute/batchexecute.go:196-241 | an empty body after the prefix is EmptyResponse; a body whose first value does not decode as rows is DecodeJson; rows with no call row are NoValidResponses; success holds the collected call responses of the decoded rows, at least one |
| Responses.PlainBodyDecodes | internal/batchexecute/batchexecute.go:196-241 | with a lawful codec, the prefix followed by the rows' text decodes to those rows' call responses, or to NoValidResponses when there are none |
| Responses.DecodeResponse | internal/batchexecute/batchexecute.go:196-241 | the loop over decoded rows computes DecodePlain |
| Responses.AppendRows | internal/batchexecute/batchexecute.go:206-234 | appending the kept rows one by one gives the accumulator followed by Collect |
| Responses.ReadLine | internal/batchexecute/batchexecute.go:255-258 | a line is a newline-terminated prefix with no earlier newline, followed by the rest; end of input is reported exactly when the input holds no newline |
| Responses.NegativeChunkLength | internal/batchexecute/batchexecute.go:269-276 | as written, the length line "-1" is accepted as length -1 |
| Responses.ChunkLengthAsWritten | internal/batchexecute/batchexecute.go:269-276 | as written, a length is accepted exactly when `ParseInt(lengthStr, 16)` reports no error, as that int64 value, else InvalidChunkLength; the corrected ChunkLength accepts exactly its non-negative lengths, with the same value |
| Responses.ChunkLength | internal/batchexecute/batchexecute.go:269-275 | a length is accepted exactly when it parses in base 16 without error and is non-negative; it is then that value; otherwise the error is InvalidChunkLength |
| Responses.LengthIsHexadecimal | internal/batchexecute/batchexecute.go:269 | the length line "105" announces 0x105 bytes |
| Responses.ChunkRows | internal/batchexecute/batchexecute.go:299-327 | a chunk that parses as rows is read as those rows before any fallback; otherwise a chunk that parses as a JSON string is read as the rows its contents parse to; it fails exactly when the direct parse fails and either the chunk is not a string or its contents do not parse as rows |
| Responses.QuotedChunk | internal/batchexecute/batchexecute.go:310-327 | with a lawful codec, both the rows' text and that text quoted as a JSON string are read as the rows |
| Responses.NextChunk | internal/batchexecute/batchexecute.go:253-292 | every turn that does not stop consumes input; the loop stops without error exactly when no newline is left; a failing turn fails with InvalidChunkLength, ReadChunk or ParseChunk |
| Responses.ChunkAfter | internal/batchexecute/batchexecute.go:263-292 | a blank length line is skipped; any other line that is not a non-negative base-16 int64 is InvalidChunkLength; a length above what remains is ReadChunk; a chunk that ChunkRows cannot read is ParseChunk; otherwise the turn yields the chunk's rows and continues after exactly that many bytes |
| Responses.HugeChunkLength | internal/batchexecute/batchexecute.go:269-284 | as written, every int64 length above 2^48 is accepted and `make([]byte, n)` then panics |
| Responses.HugeLengthReadFails | internal/batchexecute/batchexecute.go:282-291 | corrected, a length above 2^48 announces more bytes than any body holds and is ReadChunk |
| Responses.LineBreakTurn | internal/batchexecute/batchexecute.go:263-267 | a lone line break between chunks is skipped |
| Responses.LastChunk | internal/batchexecute/batchexecute.go:253-258 | a final chunk without a following line break is read, and reaching end of input then stops the loop without error |
| Responses.InnerChunk | internal/batchexecute/batchexecute.go:264-292 | a length line, exactly that many bytes and a line break contribute that chunk's responses, and the loop continues after them |
| Responses.ChunkTurn | internal/batchexecute/batchexecute.go:264-292 | a correct base-16 length line followed by the chunk reads exactly that chunk |
| Responses.ChunksOfJoined | internal/batchexecute/batchexecute.go:253-393 | the loop over length-framed chunks yields every chunk's responses, chunk after chunk |
| Responses.ChunksOf | internal/batchexecute/batchexecute.go:253-393 | with no newline left the loop ends with what it gathered; what it gathered stays a prefix of the result; its only errors are the turn errors |
| Responses.ChunksOfFrom | internal/batchexecute/batchexecute.go:253-393 | a failing turn ends the loop with its error whatever was gathered before; otherwise the new responses follow the gathered ones in order |
| Responses.DecodeChunked | internal/batchexecute/batchexecute.go:244-400 | a blank body after prefix and trimming is EmptyResponse; a non-blank body without a newline is NoValidResponses; a first turn that fails gives its error; every error is EmptyResponse, NoValidResponses or a turn error; success always holds at least one response |
| Responses.DecodeChunkedResponse | internal/batchexecute/batchexecute.go:244-400 | the reader loop computes DecodeChunked |
| Responses.ReadNextChunk | internal/batchexecute/batchexecute.go:253-292 | one turn of the reader loop computes NextChunk |
| Responses.FramedBodyDecodes | internal/batchexecute/batchexecute.go:244-400 | a prefixed body of length-framed chunks decodes to exactly the chunks' responses, or to NoValidResponses when they carry none |
| BatchExecute.Endpoint | internal/batchexecute/batchexecute.go:75-81 | the URL scheme is http exactly when UseHTTP is set |
| BatchExecute.Unwrap | internal/batchexecute/batchexecute.go:49-54 | unwraps to ErrUnauthorized if and only if the status is 401, and otherwise to nothing |
| BatchExecute.Outcome | internal/batchexecute/batchexecute.go:147-190 | a transport failure and a non-200 status are errors before any decoding |
| BatchExecute.UnauthorizedIff | internal/batchexecute/batchexecute.go:163-169 | a call fails as unauthorized if and only if the server answered 401 |
| BatchExecute.DecoderChoice | internal/batchexecute/batchexecute.go:171-190 | the chunked decoder's first response wins when it succeeds; the single-array decoder is used only when it fails; when both fail, the error carries both causes |
| BatchExecute.FramedReply | internal/batchexecute/batchexecute.go:171-190 | a 200 reply of length-framed chunks yields the first response the chunks carry |
| BatchExecute.Client.constructor | internal/batchexecute/batchexecute.go:556-567 | the client holds the given configuration and request-id generator |
| BatchExecute.Client.Execute | internal/batchexecute/batchexecute.go:74-191 | no calls: an index error, nothing sent, no id consumed; otherwise exactly one id is consumed and the request sent has the endpoint URL, the query of BuildQuery, the f.req/at form, and the result is the reply's outcome |
| BatchExecute.Client.Do | internal/batchexecute/batchexecute.go:57-59 | a batch of one call: the same request and outcome as Execute on that call |
| NotebookRpc.NotebookConfig | internal/rpc/rpc.go:87-115 | the NotebookLM host and app, the credentials, and the shared params bl, f.sid, hl without source-path |
| NotebookRpc.SourcePath | internal/rpc/rpc.go:133-137 | "/" if and only if there is no notebook id; otherwise "/notebook/" followed by the id |
| NotebookRpc.CallParams | internal/rpc/rpc.go:128-137 | the per-call params are the shared keys plus source-path, with the shared values copied and source-path from the notebook id |
| NotebookRpc.RpcOf | internal/rpc/rpc.go:139-144 | the batchexecute call carries the call's id and args, index "generic" and the per-call params |
| NotebookRpc.DataOf | internal/rpc/rpc.go:151-161 | success exactly when the call succeeded, giving the first response's payload; otherwise the wrapped error |
| NotebookRpc.CallQuery | internal/rpc/rpc.go:127-151 | what the server sees: the shared params, source-path from the notebook, rt "c", the fresh _reqid, and rpcids the call's id unless a shared param overrides it |
| NotebookRpc.RpcClient.constructor | internal/rpc/rpc.go:87-115 | the RPC client and its batchexecute client share the NotebookLM configuration |
| NotebookRpc.RpcClient.Do | internal/rpc/rpc.go:118-162 | one id is consumed; the request carries the query for the call with its source-path and the call's tuple; the result is the first response's payload |
| NotebookRpc.RpcClient.Heartbeat | internal/rpc/rpc.go:165-167 | always succeeds |
| NotebookRpc.RpcClient.ListNotebooks | internal/rpc/rpc.go:170-174 | sends the recently-viewed-projects call with null args and source-path "/" |
| NotebookRpc.RpcClient.CreateNotebook | internal/rpc/rpc.go:177-179 | always "not implemented" |
| NotebookRpc.RpcClient.DeleteNotebook | internal/rpc/rpc.go:182-184 | always "not implemented" |
| NotebookApi.FormatsExclusive | internal/api/client.go:415-463 | no response matches two source-id formats |
| NotebookApi.ExtractSourceId | internal/api/client.go:405-466 | an empty response and unparsable JSON are errors; otherwise success exactly when some format matches, with that format's string; when none matches, NoSourceId |
| NotebookApi.SourceIdUnique | internal/api/client.go:419-463 | when a format matches, every other format fails, so the order of the tries never changes the id |
| NotebookApi.FormatExamples | internal/api/client.go:416-418 | the three documented nestings give the id |
| NotebookApi.IsYouTubeUrl | internal/api/client.go:868-870 | true exactly when the URL contains "youtube.com" or "youtu.be" |
| NotebookApi.YouTubeExamples | internal/api/client.go:868-870 | a youtu.be link and a youtube.com watch link are recognised |
| NotebookApi.AudioResult | internal/api/client.go:578-590 | up to two elements give the bare result with only the project id; a badly shaped data[2] is "invalid audio data format" for Get and the bare result for Create; a result always carries the project id |
| NotebookApi.ReadAudio | internal/api/client.go:574-615 | filling the result field by field computes AudioResult |
| NotebookApi.AudioFieldsCopied | internal/api/client.go:592-612 | for a well-shaped data[2], audio data, id and title come from string elements 1, 2, 3 (else ""), and ready is true exactly when element 5 exists and is true |
| NotebookApi.CreateGetAgree | internal/api/client.go:647-651 | Create and Get read a reply differently exactly when data[2] is badly shaped |
| NotebookApi.AudioExample | internal/api/client.go:583-584 | the documented reply shape is read field by field |
| NotebookApi.AudioReply | internal/api/client.go:565-572 | an RPC failure is passed on and unparsable JSON is a parse error |
| NotebookApi.AudioResponse | internal/api/client.go:565-615 | the reply handling computes AudioReply |
| NotebookApi.ShareResult | internal/api/client.go:846-848 | the share is public exactly when the option is SharePublic |
| NotebookApi.ReadShare | internal/api/client.go:846-862 | filling the result field by field computes ShareResult |
| NotebookApi.ShareFields | internal/api/client.go:850-862 | with data[0] an array, the URL is its element 0 when that exists and is a string, else empty, and the id is its element 1 when that exists and is a string, else empty; both are empty when data[0] is missing or not an array |
| NotebookApi.ShareReply | internal/api/client.go:836-864 | an RPC failure is passed on; parsed JSON always gives a result whose visibility follows the option |
| NotebookApi.ApiClient.constructor | internal/api/client.go:30-34 | the API client wraps the given RPC client |
| NotebookApi.ApiClient.CreateAudioOverview | internal/api/client.go:546-616 | an empty project id or empty instructions fail before any call is sent and consume no id; otherwise one id is consumed, the create call is sent with [project, 0, [instructions]] and the query's source-path is "/notebook/" + project, with the fresh _reqid and (unless a shared param overrides it) the create call's rpcids; the reply is read leniently |
| NotebookApi.ApiClient.GetAudioOverview | internal/api/client.go:618-677 | one id is consumed, the get call is sent with [project, 1] and the query's source-path is "/notebook/" + project ("/" for an empty project id), with the fresh _reqid and (unless overridden) the get call's rpcids; the reply is read strictly |
| NotebookApi.ApiClient.ShareAudio | internal/api/client.go:827-865 | one id is consumed, the share call is sent with [[option], project] and the query's source-path is "/notebook/" + project ("/" for an empty project id), with the fresh _reqid and (unless overridden) the share call's rpcids; the reply is read as a share result |
| ProtoJson.FieldByNumber | internal/beprotojson/beprotojson.go:64 | a found field is in the descriptor and has the number; none is found exactly when no field has it |
| ProtoJson.FieldByName | internal/beprotojson/beprotojson.go:213 | a found field is in the descriptor and has the name; none is found exactly when no field has it |
| ProtoJson.EnumByName | internal/beprotojson/beprotojson.go:370 | a found number belongs to the name; none is found exactly when no enum value has the name |
| ProtoJson.Flatten | internal/beprotojson/beprotojson.go:153-164 | arrays of length other than 1 are unchanged; the result is never a one-element array; flattening never grows the value |
| ProtoJson.ConvertValue | internal/beprotojson/beprotojson.go:260-391 | a converted value always has the shape of the field's kind |
| ProtoJson.ConvertStringFirst | internal/beprotojson/beprotojson.go:262-282 | a string field accepts exactly the values whose first-element descent ends in a string, and takes that string; otherwise the error is "expected string" |
| ProtoJson.ScalarKinds | internal/beprotojson/beprotojson.go:284-386 | an int32, int64, uint32 or uint64 field takes a number and rejects anything else with "expected number"; bool takes only a bool; bytes only a string; an enum takes a number as itself or a known name as its number; an unknown name is an error naming it; anything else is "expected number or string" |
| ProtoJson.ConvertEncode | internal/beprotojson/beprotojson.go:260-391 | every scalar value of a kind is read back from its JSON encoding |
| ProtoJson.WrapperShortcut | internal/beprotojson/beprotojson.go:205-221 | the shortcut applies only to wrapper-typed message fields; an unregistered wrapper type is an error; without a `value` field, or when the element does not convert to its kind, the shortcut does not apply; otherwise a singular field gets a wrapper holding exactly the converted value at the `value` field's number, and a repeated one panics |
| ProtoJson.IsWrapperType | internal/beprotojson/beprotojson.go:235-249 | every wrapper type lies in the google.protobuf package; the nine names of the switch are the definition, used by WrapperShortcut |
| ProtoJson.WrapperFallsBack | internal/beprotojson/beprotojson.go:205-224 | a wrapper field whose element does not convert, or whose wrapper has no `value` field, is decoded by the ordinary setField, its errors named by the field's full name |
| ProtoJson.Populate | internal/beprotojson/beprotojson.go:55-84 | unless partial messages are allowed, a decoded message is initialized; an error during the positions is the result |
| ProtoJson.SetField | internal/beprotojson/beprotojson.go:86-95 | only the field's own number changes; a singular field is then present, and a scalar one has its kind's shape |
| ProtoJson.SetRepeated | internal/beprotojson/beprotojson.go:97-110 | a non-array is an error; otherwise the existing list is kept as a prefix and grows by exactly one entry per item; nothing else changes |
| ProtoJson.SetRepeatedItems | internal/beprotojson/beprotojson.go:97-110 | on an array, success exactly when every item converts; the new entry after the old list for item k is that item's ListItem value |
| ProtoJson.AppendFrom | internal/beprotojson/beprotojson.go:104-108 | appending keeps the list as a prefix and adds one entry per remaining item |
| ProtoJson.AppendFromItems | internal/beprotojson/beprotojson.go:104-108 | the loop succeeds exactly when every remaining item converts, and each new entry is its item's ListItem value, in item order |
| ProtoJson.ListItem | internal/beprotojson/beprotojson.go:112-150 | a message item becomes a message, a scalar item takes its kind's shape, and a non-array message item is an error |
| ProtoJson.ListItemShapes | internal/beprotojson/beprotojson.go:123-141 | a message item that flattens to a non-array sets field 1 of a new message, which panics without a field 1; an item of length other than 1 is decoded position by position |
| ProtoJson.SetMessage | internal/beprotojson/beprotojson.go:172-233 | only the field changes and it then holds a message; an empty array gives a present, empty message; a non-array is an error |
| ProtoJson.NestedAgrees | internal/beprotojson/beprotojson.go:191-226 | without wrapper-typed fields, a nested message decodes exactly like a top-level one |
| ProtoJson.WrapperOnlyNested | internal/beprotojson/beprotojson.go:205-221 | a bare convertible value in a wrapper field sets the wrapper inside a nested message and panics on a repeated field; at top level the same value is an "expected array" error |
| ProtoJson.Decode | internal/beprotojson/beprotojson.go:46-53 | input that is not a JSON array (or null) is rejected; unless partial messages are allowed, a decoded message is initialized |
| ProtoJson.Marshal | internal/beprotojson/beprotojson.go:22-25 | always "not implemented" |
| ProtoJson.PopulateTouches | internal/beprotojson/beprotojson.go:59-75 | decoding only sets fields at the numbers of non-null positions, and every non-null position of a singular field is set |
| ProtoJson.PopulateStrict | internal/beprotojson/beprotojson.go:64-68 | when unknown positions are not discarded, a successful decode has a field for every non-null position |
| ProtoJson.DiscardedPosition | internal/beprotojson/beprotojson.go:65-70 | when unknown positions are discarded, an element at a position without a field has no effect at all |
| ProtoJson.DiscardUnknownIgnores | internal/beprotojson/beprotojson.go:36-38 | under the default options, the element at an unknown position is ignored |
| ProtoJson.NestedTouches | internal/beprotojson/beprotojson.go:191-226 | a nested message only gets fields at the numbers of its non-null positions |
| ProtoJson.DecodeTouches | internal/beprotojson/beprotojson.go:46-84 | a decoded message's fields all lie at non-null positions of the input array |
| ProtoJson.FlatRoundTrip | internal/beprotojson/beprotojson.go:55-84 | a message of singular scalar fields, written position by position with nulls for absent fields, decodes back to itself |
| ProtoJson.SourceDecodes | internal/beprotojson/beprotojson.go:123-137 | a nested source item decodes to the expected source message |
| ProtoJson.SourcesSet | internal/beprotojson/beprotojson.go:97-110 | a repeated message field gets one source per item |
| ProtoJson.ProjectWithSources | internal/beprotojson/beprotojson.go:55-84 | a project array with a title, a list of sources, an id and an emoji decodes field by field |
| ProtoJson.ExtraPositionRejected | internal/beprotojson/beprotojson.go:65-68 | with unknown positions not discarded, an extra fifth element is "no field for position 5" |
| ProtoJsonDecoder.Message.constructor | internal/beprotojson/beprotojson.go:178-179 | a new message of a type has that type's descriptor and no fields set |
| ProtoJsonDecoder.Unmarshal | internal/beprotojson/beprotojson.go:46-53 | not an array: "invalid JSON array"; otherwise the error and the message's new contents are those of Populate; into a new message, those of Decode |
| ProtoJsonDecoder.PopulateMessage | internal/beprotojson/beprotojson.go:55-84 | the loop over positions sets the message to what Populate computes, with the same error |
| ProtoJsonDecoder.SetFieldOf | internal/beprotojson/beprotojson.go:86-95 | the dispatch updates the message as SetField computes |
| ProtoJsonDecoder.SetScalarField | internal/beprotojson/beprotojson.go:251-258 | a converted value replaces the field's value, and on a conversion error nothing changes |
| ProtoJsonDecoder.SetRepeatedField | internal/beprotojson/beprotojson.go:97-110 | the loop over items updates the message as SetRepeated computes |
| ProtoJsonDecoder.AppendToList | internal/beprotojson/beprotojson.go:112-150 | the list entry for one item, built in a new message, is the one ListItem computes |
| ProtoJsonDecoder.SetMessageField | internal/beprotojson/beprotojson.go:172-233 | filling a new sub-message position by position, wrapper shortcut first, updates the message as SetMessage computes; on any error the message is unchanged |

## Left out

- The client options `WithHTTPClient`, `WithDebug`, `WithTimeout`, `WithHeaders`, `WithURLParams` and `WithReqIDGenerator`, and the options `rpc.New` passes on to the batchexecute client. NotebookRpc.RpcClient.constructor models `rpc.New` without options: `WithURLParams` writes into the shared parameter map, and `WithReqIDGenerator` replaces the generator.
- The HTTP exchange itself, including headers, cookies, the `http.Client` and its timeouts, `url.Parse` failures and URL/form encoding. The exchange is a function parameter, and the request is the endpoint string, the query map and the form map.
- Debug printing, including the global `debug` flag, and the `spew` dumps.
- The mutex of `ReqIDGenerator`: calls are sequential here.
- The random choice of the base. The base is a constructor parameter, and its four-digit bound is a precondition.
- ReqIds.ReqIdGenerator.Next: does not model the 64-bit wrap-around of `base + sequence*100000`, because that would take more than 9×10^13 calls.
- `encoding/json` itself. Parsing and printing are the abstract `Codec`, and JSON numbers are integers.
- Unicode: strings are byte strings with one character per byte. `strings.TrimSpace` is modelled on the ASCII white space only.
- The Float and Double kinds and the float-to-integer truncations of `convertValue`.
- ProtoJson.ConvertValue: integer kinds keep the JSON integer unchanged. The model does not truncate to 32 bits or reinterpret as unsigned, because numbers are unbounded integers.
- Map fields, oneofs and proto3 implicit presence. A field is present exactly when it is in the message's map, and an empty list is absent.
- ProtoJsonDecoder.SetRepeatedField: the message is left unchanged until every item has converted. Go appends item by item to the mutable list, so after a failed item it leaves the earlier items behind. The contract states the new state only on success.
- ProtoJsonDecoder.PopulateMessage: after an error, the state the message is left in is not stated, because Go leaves a partially filled message.
- Go run-time panics, modelled as the error value `RuntimePanic`:
  - indexing `rpcs[0]` with no calls (`IndexOutOfRange`);
  - a nil field-1 descriptor for a flattened list item;
  - setting a wrapper message on a repeated field.
- `handleChunk`: it is never called, and its row filter is the one modelled.
- `extractYouTubeVideoID`: it depends on `net/url` parsing.
- The other `api.Client` methods: they are thin wrappers over `rpc.Do` or file and encoding helpers.
- `internal/auth` and `cmd/nlm`: browser automation, process and terminal I/O.
- The element-2 unescape fallback of the chunked decoder is modelled as written. `Responses.UnescapeNeverRescues` shows that it never changes the outcome.

## Findings

| source | as written | input that shows it | evidently intended | confidence | as-written member | corrected member |
|---|---|---|---|---|---|---|
| internal/batchexecute/batchexecute.go:269-284 | the length line is accepted whenever `strconv.ParseInt(lengthStr, 16, 64)` succeeds, and the value goes straight to `make([]byte, totalLength)` | the body `)]}'\n-1\n[]`: ParseInt gives -1, and `make([]byte, -1)` panics at run time | a negative length is an invalid chunk length, like any other unusable length line | not executed | Responses.NegativeChunkLength | Responses.ChunkLength |
| internal/batchexecute/batchexecute.go:269-284 | any length up to the int64 maximum is passed to `make([]byte, totalLength)` before a single byte is read | the body `)]}'\n7fffffffffffffff\n[]`: the length exceeds the 2^48-byte allocation limit of 64-bit Go, and `make` panics | a length longer than the rest of the body is a failed chunk read, as io.ReadFull reports for any other short body | not executed | Responses.HugeChunkLength | Responses.HugeLengthReadFails |

=== FILE: api.dfy ===
/**
 * The response-shape readers of the NotebookLM API client: the source id in
 * one of three nestings, the audio overview fields, the share result, and the
 * YouTube URL test.
 */
module NotebookApi {
  import opened Wrappers
  import opened JsonValue
  import opened GoLib
  import opened ReqIds
  import opened Requests
  import opened BatchExecute
  import opened NotebookRpc

  datatype ApiError =
    | EmptyResponse            // "empty response"
    | ParseJson                // "parse response JSON: ..." / "parse response: ..."
    | NoSourceId               // "could not find source ID in response structure"
    | ProjectIdRequired        // "project ID required"
    | InstructionsRequired     // "instructions required"
    | InvalidAudioDataFormat   // "invalid audio data format"
    | RpcFailed(cause: RpcError)   // the RPC failed

  // ---------------------------------------------------------------- source id

  /**
   * The string reached from `d` by taking element 0, then `depth` more times
   * element 0 of an array: format 1 is depth 3 (`d[0][0][0][0]`), format 2
   * depth 2, format 3 depth 1.
   */
  function Nested(d: seq<Json>, depth: nat): Option<string> {
    if d == [] then None
    else if depth == 0 then (if d[0].Str? then Some(d[0].s) else None)
    else if d[0].Arr? then Nested(d[0].items, depth - 1)
    else None
  }

  /** The three formats in the order they are tried. */
  const Formats: seq<nat> := [3, 2, 1]

  /** No two formats match the same data: the order in which they are tried never matters. */
  lemma {:induction false} FormatsExclusive(d: seq<Json>, i: nat, j: nat)
    requires i < j
    ensures Nested(d, i).None? || Nested(d, j).None?
    decreases i
  {
    if d != [] && i > 0 && d[0].Arr? {
      FormatsExclusive(d[0].items, i - 1, j - 1);
    }
  }

  /** extractSourceID: empty text, then the parse, then the formats in order, the first match winning. */
  method ExtractSourceId(c: Codec, resp: string) returns (r: Result<string, ApiError>)
    ensures resp == [] ==> r == Err(EmptyResponse)
    ensures resp != [] && AsList(c.unmarshal(resp)).None? ==> r == Err(ParseJson)
    ensures resp != [] && AsList(c.unmarshal(resp)).Some? ==>
      var d := AsList(c.unmarshal(resp)).value;
      && (r.Ok? <==> exists k :: 0 <= k < |Formats| && Nested(d, Formats[k]).Some?)
      && (r.Ok? ==> exists k :: 0 <= k < |Formats| && Nested(d, Formats[k]) == Some(r.value))
      && (r.Err? ==> r.error == NoSourceId)
  {
    if resp == [] {
      return Err(EmptyResponse);
    }
    var data := AsList(c.unmarshal(resp));
    if data.None? {
      return Err(ParseJson);
    }
    var d := data.value;
    for i := 0 to |Formats|
      invariant forall k :: 0 <= k < i ==> Nested(d, Formats[k]).None?
    {
      var id := Nested(d, Formats[i]);
      if id.Some? {
        return Ok(id.value);
      }
    }
    return Err(NoSourceId);
  }

  /** The id that ExtractSourceId returns, whichever format holds it, is the one at that format's place. */
  lemma SourceIdUnique(d: seq<Json>, k: nat, s: string)
    requires k < |Formats| && Nested(d, Formats[k]) == Some(s)
    ensures forall k' :: 0 <= k' < |Formats| && k' != k ==> Nested(d, Formats[k']).None?
  {
    forall k' | 0 <= k' < |Formats| && k' != k
      ensures Nested(d, Formats[k']).None?
    {
      if Formats[k'] < Formats[k] {
        FormatsExclusive(d, Formats[k'], Formats[k]);
      } else {
        FormatsExclusive(d, Formats[k], Formats[k']);
      }
    }
  }

  /** The three formats on their example shapes. */
  lemma FormatExamples(id: string)
    ensures Nested([Arr([Arr([Arr([Str(id)])])])], 3) == Some(id)
    ensures Nested([Arr([Arr([Str(id)])])], 2) == Some(id)
    ensures Nested([Arr([Str(id)])], 1) == Some(id)
    ensures Nested([Str(id)], 1).None? && Nested([Arr([])], 1).None?
  {
    assert Nested([Arr([Str(id)])], 1) == Some(id);
    assert Nested([Arr([Arr([Str(id)])])], 2) == Some(id);
  }

  // ---------------------------------------------------------------- YouTube

  /** isYouTubeURL: the text contains "youtube.com" or "youtu.be" anywhere. */
  function IsYouTubeUrl(u: string): (r: bool)
    ensures r <==> (exists i :: OccursAt(u, "youtube.com", i)) || (exists i :: OccursAt(u, "youtu.be", i))
  {
    Contains(u, "youtube.com") || Contains(u, "youtu.be")
  }

  /** Short links and watch pages are recognised, and so is any text that merely mentions them. */
  lemma YouTubeExamples()
    ensures IsYouTubeUrl("https://youtu.be/abc")
    ensures IsYouTubeUrl("https://www.youtube.com/watch?v=abc")
  {
    assert OccursAt("https://youtu.be/abc", "youtu.be", 8);
    var a, b := "https://www.", "youtube.com";
    var u := a + b + "/watch?v=abc";
    assert u[|a|..|a| + |b|] == b;
    assert OccursAt(u, b, |a|);
    assert u == "https://www.youtube.com/watch?v=abc";
  }

  // ---------------------------------------------------------------- audio overview

  datatype AudioOverviewResult = AudioOverviewResult(
    projectId: string, audioId: string, title: string, audioData: string, isReady: bool)

  /** A result carrying only the project id. */
  function Bare(projectId: string): AudioOverviewResult {
    AudioOverviewResult(projectId, "", "", "", false)
  }

  /** Element `i` when it is a string, else "". */
  function StringAt(xs: seq<Json>, i: nat): string {
    if i < |xs| && xs[i].Str? then xs[i].s else ""
  }

  /** data[2] is an array of at least four elements. */
  predicate AudioShaped(data: seq<Json>) {
    |data| > 2 && data[2].Arr? && |data[2].items| >= 4
  }

  /**
   * What the audio readers promise, field by field: nothing but the project id
   * for up to two elements; for a well-shaped `data[2]` the strings at 1, 2, 3
   * and the boolean at 5 (when present); a badly shaped `data[2]` is an error
   * for Get (`strict`) and the bare result for Create.
   */
  function AudioResult(projectId: string, data: seq<Json>, strict: bool): (r: Result<AudioOverviewResult, ApiError>)
    ensures |data| <= 2 ==> r == Ok(Bare(projectId))
    ensures |data| > 2 && !AudioShaped(data) ==> r == (if strict then Err(InvalidAudioDataFormat) else Ok(Bare(projectId)))
    ensures r.Ok? ==> r.value.projectId == projectId
  {
    if |data| <= 2 then Ok(Bare(projectId))
    else if !AudioShaped(data) then (if strict then Err(InvalidAudioDataFormat) else Ok(Bare(projectId)))
    else
      var audio := data[2].items;
      Ok(AudioOverviewResult(projectId, StringAt(audio, 2), StringAt(audio, 3), StringAt(audio, 1),
                             |audio| > 5 && audio[5] == Bool(true)))
  }

  /** The shared reading of both audio calls, filling the result one field at a time. */
  method ReadAudio(projectId: string, data: seq<Json>, strict: bool) returns (r: Result<AudioOverviewResult, ApiError>)
    ensures r == AudioResult(projectId, data, strict)
  {
    var result := Bare(projectId);
    if |data| == 0 {
      return Ok(result);
    }
    if |data| > 2 {
      if !data[2].Arr? || |data[2].items| < 4 {
        if strict {
          return Err(InvalidAudioDataFormat);
        }
        return Ok(result);
      }
      var audio := data[2].items;
      if audio[1].Str? {
        result := result.(audioData := audio[1].s);
      }
      if audio[2].Str? {
        result := result.(audioId := audio[2].s);
      }
      if audio[3].Str? {
        result := result.(title := audio[3].s);
      }
      if |audio| > 5 && audio[5].Bool? {
        result := result.(isReady := audio[5].b);
      }
    }
    return Ok(result);
  }

  /** A field of the wrong type is left at its zero value; a field of the right type is copied. */
  lemma AudioFieldsCopied(projectId: string, data: seq<Json>, strict: bool)
    requires AudioShaped(data)
    ensures var audio := data[2].items; var r := AudioResult(projectId, data, strict);
      && r.Ok?
      && (audio[1].Str? ==> r.value.audioData == audio[1].s) && (!audio[1].Str? ==> r.value.audioData == "")
      && (audio[2].Str? ==> r.value.audioId == audio[2].s) && (!audio[2].Str? ==> r.value.audioId == "")
      && (audio[3].Str? ==> r.value.title == audio[3].s) && (!audio[3].Str? ==> r.value.title == "")
      && (r.value.isReady <==> |audio| > 5 && audio[5] == Bool(true))
  {
  }

  /** Create and Get differ only on a badly shaped `data[2]`. */
  lemma CreateGetAgree(projectId: string, data: seq<Json>)
    ensures AudioResult(projectId, data, false) != AudioResult(projectId, data, true)
        <==> |data| > 2 && !AudioShaped(data)
  {
  }

  /** The example reply `[null,null,[3,"<audio>","<id>","<title>",null,true],null,[false]]`. */
  lemma AudioExample(projectId: string)
    ensures AudioResult(projectId,
      [Null, Null, Arr([Num(3), Str("QUJD"), Str("a1"), Str("Overview"), Null, Bool(true)]), Null, Arr([Bool(false)])],
      true) == Ok(AudioOverviewResult(projectId, "a1", "Overview", "QUJD", true))
  {
  }

  /** From the RPC result to the audio result: RPC error, then parse error, then the field reading. */
  function AudioReply(c: Codec, projectId: string, reply: Result<string, RpcError>, strict: bool)
    : (r: Result<AudioOverviewResult, ApiError>)
    ensures reply.Err? ==> r == Err(RpcFailed(reply.error))
    ensures reply.Ok? && AsList(c.unmarshal(reply.value)).None? ==> r == Err(ParseJson)
  {
    match reply
    case Err(e) => Err(RpcFailed(e))
    case Ok(resp) =>
      match AsList(c.unmarshal(resp))
      case None => Err(ParseJson)
      case Some(data) => AudioResult(projectId, data, strict)
  }

  // ---------------------------------------------------------------- share

  datatype ShareAudioResult = ShareAudioResult(shareUrl: string, shareId: string, isPublic: bool)

  /** The visibility options; only 1 is public. */
  const SharePrivate: int := 0
  const SharePublic: int := 1

  /** What ShareAudio promises: public exactly for the public option; URL and id from `data[0][0]` and `data[0][1]` when strings. */
  function ShareResult(data: seq<Json>, option: int): (r: ShareAudioResult)
    ensures r.isPublic <==> option == SharePublic
  {
    var share := if |data| > 0 && data[0].Arr? then data[0].items else [];
    ShareAudioResult(StringAt(share, 0), StringAt(share, 1), option == SharePublic)
  }

  /** The reading of ShareAudio, filling the result one field at a time. */
  method ReadShare(data: seq<Json>, option: int) returns (result: ShareAudioResult)
    ensures result == ShareResult(data, option)
  {
    result := ShareAudioResult("", "", option == SharePublic);
    if |data| > 0 && data[0].Arr? && |data[0].items| > 0 {
      var share := data[0].items;
      if share[0].Str? {
        result := result.(shareUrl := share[0].s);
      }
      if |share| > 1 && share[1].Str? {
        result := result.(shareId := share[1].s);
      }
    }
  }

  /** A reply without a share array leaves URL and id empty; a string pair fills both. */
  lemma ShareFields(data: seq<Json>, option: int)
    ensures (|data| == 0 || !data[0].Arr?) ==> ShareResult(data, option).shareUrl == "" && ShareResult(data, option).shareId == ""
    ensures |data| > 0 && data[0].Arr? ==>
      var share := data[0].items;
      && ShareResult(data, option).shareUrl == (if |share| > 0 && share[0].Str? then share[0].s else "")
      && ShareResult(data, option).shareId == (if |share| > 1 && share[1].Str? then share[1].s else "")
  {
  }

  function ShareReply(c: Codec, reply: Result<string, RpcError>, option: int): (r: Result<ShareAudioResult, ApiError>)
    ensures reply.Err? ==> r == Err(RpcFailed(reply.error))
    ensures reply.Ok? && AsList(c.unmarshal(reply.value)).Some? ==> r.Ok? && (r.value.isPublic <==> option == SharePublic)
  {
    match reply
    case Err(e) => Err(RpcFailed(e))
    case Ok(resp) =>
      match AsList(c.unmarshal(resp))
      case None => Err(ParseJson)
      case Some(data) => Ok(ShareResult(data, option))
  }

  // ---------------------------------------------------------------- the client

  /** The NotebookLM API client over the RPC client. */
  class ApiClient {
    const rpc: RpcClient

    constructor (rpc: RpcClient)
      ensures this.rpc == rpc
    {
      this.rpc := rpc;
    }

    /** CreateAudioOverview: both inputs are checked before any call is made. */
    method CreateAudioOverview(c: Codec, projectId: string, instructions: string, exchange: HttpRequest -> HttpReply)
      returns (r: Result<AudioOverviewResult, ApiError>, sent: Option<HttpRequest>)
      requires rpc.client.config == rpc.config && rpc.client.reqid.Valid()
      modifies rpc.client.reqid
      ensures projectId == "" ==> r == Err(ProjectIdRequired) && sent.None?
      ensures projectId != "" && instructions == "" ==> r == Err(InstructionsRequired) && sent.None?
      ensures sent.None? ==> rpc.client.reqid.sequence == old(rpc.client.reqid.sequence)
      ensures projectId != "" && instructions != "" ==> (
        && sent.Some?
        && rpc.client.reqid.sequence == old(rpc.client.reqid.sequence) + 1
        && "source-path" in sent.value.query && sent.value.query["source-path"] == SourcePath(projectId)
        && "_reqid" in sent.value.query
        && sent.value.query["_reqid"] == Itoa(IdAt(rpc.client.reqid.base, old(rpc.client.reqid.sequence)))
        && ("rpcids" !in rpc.config.urlParams ==>
              "rpcids" in sent.value.query && sent.value.query["rpcids"] == CreateAudioOverviewId)
        && sent.value.form == FormBody(c, [RpcData(c, Rpc(CreateAudioOverviewId,
             Some([Str(projectId), Num(0), Arr([Str(instructions)])]), "generic", map[]))], rpc.config.authToken)
        && r == AudioReply(c, projectId, DataOf(Outcome(c, exchange(sent.value))), false))
    {
      if projectId == "" {
        return Err(ProjectIdRequired), None;
      }
      if instructions == "" {
        return Err(InstructionsRequired), None;
      }
      var call := Call(CreateAudioOverviewId, Some([Str(projectId), Num(0), Arr([Str(instructions)])]), projectId);
      var reply;
      reply, sent := rpc.Do(c, call, exchange);
      CallQuery(sent.value.query, rpc.config.urlParams, call, rpc.config.urlParams["source-path" := SourcePath(projectId)],
                Itoa(IdAt(rpc.client.reqid.base, old(rpc.client.reqid.sequence))));
      r := AudioResponse(c, projectId, reply, false);
    }

    /** GetAudioOverview: a badly shaped reply is an error here. */
    method GetAudioOverview(c: Codec, projectId: string, exchange: HttpRequest -> HttpReply)
      returns (r: Result<AudioOverviewResult, ApiError>, sent: Option<HttpRequest>)
      requires rpc.client.config == rpc.config && rpc.client.reqid.Valid()
      modifies rpc.client.reqid
      ensures rpc.client.reqid.sequence == old(rpc.client.reqid.sequence) + 1
      ensures && sent.Some?
        && "source-path" in sent.value.query && sent.value.query["source-path"] == SourcePath(projectId)
        && "_reqid" in sent.value.query
        && sent.value.query["_reqid"] == Itoa(IdAt(rpc.client.reqid.base, old(rpc.client.reqid.sequence)))
        && ("rpcids" !in rpc.config.urlParams ==>
              "rpcids" in sent.value.query && sent.value.query["rpcids"] == GetAudioOverviewId)
        && sent.value.form == FormBody(c, [RpcData(c, Rpc(GetAudioOverviewId,
             Some([Str(projectId), Num(1)]), "generic", map[]))], rpc.config.authToken)
        && r == AudioReply(c, projectId, DataOf(Outcome(c, exchange(sent.value))), true)
    {
      var call := Call(GetAudioOverviewId, Some([Str(projectId), Num(1)]), projectId);
      var reply;
      reply, sent := rpc.Do(c, call, exchange);
      CallQuery(sent.value.query, rpc.config.urlParams, call, rpc.config.urlParams["source-path" := SourcePath(projectId)],
                Itoa(IdAt(rpc.client.reqid.base, old(rpc.client.reqid.sequence))));
      r := AudioResponse(c, projectId, reply, true);
    }

    /** ShareAudio: the option travels as `[[option], projectId]`. */
    method ShareAudio(c: Codec, projectId: string, option: int, exchange: HttpRequest -> HttpReply)
      returns (r: Result<ShareAudioResult, ApiError>, sent: Option<HttpRequest>)
      requires rpc.client.config == rpc.config && rpc.client.reqid.Valid()
      modifies rpc.client.reqid
      ensures rpc.client.reqid.sequence == old(rpc.client.reqid.sequence) + 1
      ensures && sent.Some?
        && "source-path" in sent.value.query && sent.value.query["source-path"] == SourcePath(projectId)
        && "_reqid" in sent.value.query
        && sent.value.query["_reqid"] == Itoa(IdAt(rpc.client.reqid.base, old(rpc.client.reqid.sequence)))
        && ("rpcids" !in rpc.config.urlParams ==>
              "rpcids" in sent.value.query && sent.value.query["rpcids"] == ShareAudioId)
        && sent.value.form == FormBody(c, [RpcData(c, Rpc(ShareAudioId,
             Some([Arr([Num(option)]), Str(projectId)]), "generic", map[]))], rpc.config.authToken)
        && r == ShareReply(c, DataOf(Outcome(c, exchange(sent.value))), option)
    {
      var call := Call(ShareAudioId, Some([Arr([Num(option)]), Str(projectId)]), projectId);
      var reply;
      reply, sent := rpc.Do(c, call, exchange);
      CallQuery(sent.value.query, rpc.config.urlParams, call, rpc.config.urlParams["source-path" := SourcePath(projectId)],
                Itoa(IdAt(rpc.client.reqid.base, old(rpc.client.reqid.sequence))));
      if reply.Err? {
        return Err(RpcFailed(reply.error)), sent;
      }
      var data := AsList(c.unmarshal(reply.value));
      if data.None? {
        return Err(ParseJson), sent;
      }
      var result := ReadShare(data.value, option);
      r := Ok(result);
    }
  }

  /** The steps after the call in both audio methods. */
  method AudioResponse(c: Codec, projectId: string, reply: Result<string, RpcError>, strict: bool)
    returns (r: Result<AudioOverviewResult, ApiError>)
    ensures r == AudioReply(c, projectId, reply, strict)
  {
    if reply.Err? {
      return Err(RpcFailed(reply.error));
    }
    var data := AsList(c.unmarshal(reply.value));
    if data.None? {
      return Err(ParseJson);
    }
    r := ReadAudio(projectId, data.value, strict);
  }
}

=== FILE: client.dfy ===
/**
 * The batchexecute client: one POST per batch of calls, the reply's status
 * classified, and the body decoded by the chunked decoder with the
 * single-array decoder as fallback.
 */
module BatchExecute {
  import opened Wrappers
  import opened JsonValue
  import opened GoLib
  import opened ReqIds
  import opened Requests
  import opened Responses

  /** The client configuration; debug output is not modelled. */
  datatype Config = Config(
    host: string,
    app: string,
    authToken: string,
    cookies: string,
    headers: map<string, string>,
    urlParams: map<string, string>,
    useHTTP: bool)

  /** The batchexecute endpoint of an app on a host. */
  function Endpoint(config: Config): (u: string)
    ensures config.useHTTP ==> "http://" <= u
    ensures !config.useHTTP ==> "https://" <= u
  {
    (if config.useHTTP then "http" else "https") + "://" + config.host + "/_/" + config.app + "/data/batchexecute"
  }

  /** What the client sends: the endpoint, the query parameters and the form fields. */
  datatype HttpRequest = HttpRequest(url: string, query: map<string, string>, form: map<string, string>)

  /** What comes back: a transport failure, or a status code and the whole body. */
  datatype HttpReply = Failed | Reply(status: int, body: string)

  /** A reply with a status other than 200. */
  datatype BatchExecuteError = BatchExecuteError(statusCode: int)

  /** The sentinel errors a BatchExecuteError can wrap. */
  datatype Sentinel = Unauthorized

  /** BatchExecuteError.Unwrap: a 401 wraps the unauthorized sentinel, any other status wraps nothing. */
  function Unwrap(e: BatchExecuteError): (r: Option<Sentinel>)
    ensures r == Some(Unauthorized) <==> e.statusCode == 401
    ensures r.None? <==> e.statusCode != 401
  {
    if e.statusCode == 401 then Some(Unauthorized) else None
  }

  datatype ExecError =
    | IndexOutOfRange                                    // no calls: `rpcs[0]` panics
    | Transport                                          // "execute request: ..." / "read response: ..."
    | Status(err: BatchExecuteError)                     // non-200 reply
    | Decode(chunked: DecodeError, plain: DecodeError)   // both decoders failed

  /** errors.Is(err, ErrUnauthorized): only a status error whose Unwrap is the sentinel. */
  predicate IsUnauthorized(e: ExecError) {
    e.Status? && Unwrap(e.err) == Some(Unauthorized)
  }

  /** The result Execute draws from a reply: the first response of whichever decoder succeeds first. */
  function Outcome(c: Codec, reply: HttpReply): (r: Result<Response, ExecError>)
    ensures reply.Failed? ==> r == Err(Transport)
    ensures reply.Reply? && reply.status != 200 ==> r == Err(Status(BatchExecuteError(reply.status)))
  {
    match reply
    case Failed => Err(Transport)
    case Reply(status, body) =>
      if status != 200 then Err(Status(BatchExecuteError(status)))
      else
        match DecodeChunked(c, body)
        case Ok(rs) => Ok(rs[0])
        case Err(e1) =>
          match DecodePlain(c, body)
          case Ok(rs) => Ok(rs[0])
          case Err(e2) => Err(Decode(e1, e2))
  }

  /** A failed call is classified as unauthorized exactly when the server answered 401. */
  lemma UnauthorizedIff(c: Codec, reply: HttpReply)
    ensures (Outcome(c, reply).Err? && IsUnauthorized(Outcome(c, reply).error))
        <==> reply.Reply? && reply.status == 401
  {
  }

  /**
   * The decoder choice: the chunked decoder's first response whenever it
   * succeeds; the single-array decoder only when it fails; an error carrying
   * both causes when both fail.
   */
  lemma DecoderChoice(c: Codec, body: string)
    ensures DecodeChunked(c, body).Ok? ==> Outcome(c, Reply(200, body)) == Ok(DecodeChunked(c, body).value[0])
    ensures DecodeChunked(c, body).Err? && DecodePlain(c, body).Ok? ==>
      Outcome(c, Reply(200, body)) == Ok(DecodePlain(c, body).value[0])
    ensures Outcome(c, Reply(200, body)).Err? <==> DecodeChunked(c, body).Err? && DecodePlain(c, body).Err?
    ensures Outcome(c, Reply(200, body)).Err? ==>
      Outcome(c, Reply(200, body)).error == Decode(DecodeChunked(c, body).error, DecodePlain(c, body).error)
  {
  }

  /** A 200 reply carrying length-framed chunks yields the first call response the chunks carry. */
  lemma FramedReply(c: Codec, chunks: seq<string>)
    requires chunks != [] && Framable(c, chunks)
    requires var last := chunks[|chunks| - 1]; last != [] && !IsSpace(last[|last| - 1])
    requires ChunkResponses(c, chunks) != []
    ensures Outcome(c, Reply(200, Prefix + "\n" + Joined(chunks) + "\n")) == Ok(ChunkResponses(c, chunks)[0])
  {
    FramedBodyDecodes(c, chunks);
  }

  /**
   * The batchexecute client: its configuration and its request-id generator.
   * The HTTP exchange is a parameter of Execute.
   */
  class Client {
    const config: Config
    const reqid: ReqIdGenerator

    constructor (config: Config, reqid: ReqIdGenerator)
      ensures this.config == config && this.reqid == reqid
    {
      this.config := config;
      this.reqid := reqid;
    }

    /**
     * Execute: builds the query (consuming one request id) and the form body,
     * hands the request to `exchange`, and decodes the reply. `sent` is the
     * request handed over, if any.
     */
    method Execute(c: Codec, rpcs: seq<Rpc>, exchange: HttpRequest -> HttpReply)
      returns (r: Result<Response, ExecError>, sent: Option<HttpRequest>)
      requires reqid.Valid()
      modifies reqid
      ensures rpcs == [] ==> r == Err(IndexOutOfRange) && sent.None? && reqid.sequence == old(reqid.sequence)
      ensures rpcs != [] ==> reqid.sequence == old(reqid.sequence) + 1
      ensures rpcs != [] ==> (
        && sent.Some?
        && sent.value.url == Endpoint(config)
        && QueryFor(sent.value.query, config.urlParams, rpcs[0], Itoa(IdAt(reqid.base, old(reqid.sequence))))
        && sent.value.form == FormBody(c, Envelope(c, rpcs), config.authToken)
        && r == Outcome(c, exchange(sent.value)))
    {
      if rpcs == [] {
        return Err(IndexOutOfRange), None;
      }
      var id := reqid.Next();
      var query := BuildQuery(config.urlParams, rpcs, id);
      var envelope := BuildEnvelope(c, rpcs);
      assert envelope == Envelope(c, rpcs);
      var form := FormBody(c, envelope, config.authToken);
      var request := HttpRequest(Endpoint(config), query, form);
      sent := Some(request);
      var reply := exchange(request);
      match reply {
        case Failed =>
          r := Err(Transport);
        case Reply(status, body) =>
          if status != 200 {
            r := Err(Status(BatchExecuteError(status)));
          } else {
            var responses := DecodeChunkedResponse(c, body);
            if responses.Err? {
              var fallback := DecodeResponse(c, body);
              if fallback.Err? {
                return Err(Decode(responses.error, fallback.error)), sent;
              }
              responses := fallback;
            }
            r := Ok(responses.value[0]);
          }
      }
    }

    /** Do: a batch of one call. */
    method Do(c: Codec, rpc: Rpc, exchange: HttpRequest -> HttpReply)
      returns (r: Result<Response, ExecError>, sent: Option<HttpRequest>)
      requires reqid.Valid()
      modifies reqid
      ensures reqid.sequence == old(reqid.sequence) + 1
      ensures && sent.Some?
        && sent.value.url == Endpoint(config)
        && QueryFor(sent.value.query, config.urlParams, rpc, Itoa(IdAt(reqid.base, old(reqid.sequence))))
        && sent.value.form == FormBody(c, [RpcData(c, rpc)], config.authToken)
        && r == Outcome(c, exchange(sent.value))
    {
      assert Envelope(c, [rpc]) == [RpcData(c, rpc)];
      r, sent := Execute(c, [rpc], exchange);
    }
  }
}

=== FILE: golib.dfy ===
/**
 * The few pieces of Go's standard library that the core's behaviour depends
 * on: `strings.TrimPrefix`, `strings.TrimSpace`, `strings.Contains`,
 * `strconv.ParseInt`, `strconv.Atoi`, `strconv.Itoa` and the map-copying loop
 * `for k, v := range m { q[k] = v }`.
 */
module GoLib {
  import opened Wrappers

  const MaxUint64: nat := 0xFFFF_FFFF_FFFF_FFFF
  const MinInt64: int := -0x8000_0000_0000_0000
  const MaxInt64: int := 0x7FFF_FFFF_FFFF_FFFF

  predicate IsInt64(n: int) { MinInt64 <= n <= MaxInt64 }

  // ---------------------------------------------------------------- strings

  /** strings.TrimPrefix */
  function TrimPrefix(s: string, prefix: string): (r: string)
    ensures prefix <= s ==> s == prefix + r
    ensures !(prefix <= s) ==> r == s
  {
    if prefix <= s then s[|prefix|..] else s
  }

  /** The white space `strings.TrimSpace` removes, restricted to single bytes. */
  predicate IsSpace(c: char) {
    c == ' ' || c == '\t' || c == '\n' || c == '\r' || c == '\U{000B}' || c == '\U{000C}'
  }

  function TrimLeftSpace(s: string): (r: string)
    ensures |r| <= |s| && r == s[|s| - |r|..]
    ensures forall k :: 0 <= k < |s| - |r| ==> IsSpace(s[k])
    ensures r == [] || !IsSpace(r[0])
  {
    if s != [] && IsSpace(s[0]) then TrimLeftSpace(s[1..]) else s
  }

  function TrimRightSpace(s: string): (r: string)
    ensures |r| <= |s| && r == s[..|r|]
    ensures forall k :: |r| <= k < |s| ==> IsSpace(s[k])
    ensures r == [] || !IsSpace(r[|r| - 1])
  {
    if s != [] && IsSpace(s[|s| - 1]) then TrimRightSpace(s[..|s| - 1]) else s
  }

  /** `s` neither starts nor ends with white space. */
  predicate Unpadded(s: string) {
    s == [] || (!IsSpace(s[0]) && !IsSpace(s[|s| - 1]))
  }

  /** `r` is the infix of `s` at offset `a`, and everything of `s` before and after it is white space. */
  predicate TrimmedAt(s: string, r: string, a: int) {
    && 0 <= a <= |s| - |r|
    && s[a..a + |r|] == r
    && (forall k :: 0 <= k < a ==> IsSpace(s[k]))
    && (forall k :: a + |r| <= k < |s| ==> IsSpace(s[k]))
  }

  /** strings.TrimSpace: the longest infix that neither starts nor ends with white space. */
  function TrimSpace(s: string): (r: string)
    ensures Unpadded(r)
    ensures exists a :: TrimmedAt(s, r, a)
    ensures r == [] <==> forall k :: 0 <= k < |s| ==> IsSpace(s[k])
  {
    var l := TrimLeftSpace(s);
    var r := TrimRightSpace(l);
    TrimmedAway(s, l, r);
    TrimmedEnds(l, r);
    TrimmedInfix(s, l, r);
    r
  }

  /** Only white space is cut: the trimmed text sits in `s` after the leading white space. */
  lemma TrimmedInfix(s: string, l: string, r: string)
    requires l == TrimLeftSpace(s) && r == TrimRightSpace(l)
    ensures TrimmedAt(s, r, |s| - |l|)
  {
    InfixAfter(s, l, r, |s| - |l|);
  }

  /** A text with white space before offset `a` and after the kept prefix of `s[a..]` is trimmed at `a`. */
  lemma InfixAfter(s: string, l: string, r: string, a: int)
    requires 0 <= a <= |s| && l == s[a..] && |r| <= |l| && r == l[..|r|]
    requires forall k :: 0 <= k < a ==> IsSpace(s[k])
    requires forall k :: |r| <= k < |l| ==> IsSpace(l[k])
    ensures TrimmedAt(s, r, a)
  {
    assert s[a..a + |r|] == r;
    forall k | a + |r| <= k < |s|
      ensures IsSpace(s[k])
    {
      assert s[k] == l[k - a];
    }
  }

  /** Neither end of the trimmed text is white space. */
  lemma TrimmedEnds(l: string, r: string)
    requires (l == [] || !IsSpace(l[0])) && r == TrimRightSpace(l)
    ensures Unpadded(r)
  {
    assert r == [] || r[0] == l[0];
  }

  /** Trimming both ends leaves nothing exactly when every byte is white space. */
  lemma TrimmedAway(s: string, l: string, r: string)
    requires l == TrimLeftSpace(s) && r == TrimRightSpace(l)
    ensures r == [] <==> forall k :: 0 <= k < |s| ==> IsSpace(s[k])
  {
    if r != [] {
      assert r[0] == l[0] == s[|s| - |l|];
    }
  }

  /** A line break on either side of a text that neither starts nor ends with white space is trimmed away. */
  lemma TrimSpaceNewlines(s: string)
    requires s != [] && !IsSpace(s[0]) && !IsSpace(s[|s| - 1])
    ensures TrimSpace("\n" + s + "\n") == s
  {
    var t := "\n" + s + "\n";
    assert t[1..] == s + "\n";
    assert TrimLeftSpace(t) == TrimLeftSpace(s + "\n");
    assert (s + "\n")[0] == s[0];
    var u := s + "\n";
    assert TrimLeftSpace(u) == u;
    assert u[..|u| - 1] == s;
    assert TrimRightSpace(u) == TrimRightSpace(s);
  }

  /** `sub` occurs in `s` starting at offset `i`. */
  predicate OccursAt(s: string, sub: string, i: int) {
    0 <= i <= |s| - |sub| && s[i..i + |sub|] == sub
  }

  /** strings.Contains: `sub` occurs in `s` at some offset. */
  function Contains(s: string, sub: string): (r: bool)
    ensures r <==> exists i :: OccursAt(s, sub, i)
    decreases |s|
  {
    if |sub| > |s| then false
    else if s[..|sub|] == sub then assert OccursAt(s, sub, 0); true
    else
      var r := Contains(s[1..], sub);
      assert r ==> exists i :: OccursAt(s, sub, i) by {
        if r {
          var i :| OccursAt(s[1..], sub, i);
          assert s[i + 1..i + 1 + |sub|] == s[1..][i..i + |sub|];
          assert OccursAt(s, sub, i + 1);
        }
      }
      assert (exists i :: OccursAt(s, sub, i)) ==> r by {
        if i :| OccursAt(s, sub, i) {
          assert i != 0;
          assert s[1..][i - 1..i - 1 + |sub|] == s[i..i + |sub|];
          assert OccursAt(s[1..], sub, i - 1);
        }
      }
      r
  }

  // ---------------------------------------------------------------- strconv

  /** The digit value strconv gives a byte: 0-9, then letters of either case from 10. */
  function DigitValue(c: char): Option<nat> {
    if '0' <= c <= '9' then Some(c as nat - '0' as nat)
    else if 'a' <= c <= 'z' then Some(c as nat - 'a' as nat + 10)
    else if 'A' <= c <= 'Z' then Some(c as nat - 'A' as nat + 10)
    else None
  }

  /** The two bases the core parses and prints in. */
  predicate ValidBase(base: nat) { base == 10 || base == 16 }

  lemma DivModBase(n: nat, base: nat)
    requires ValidBase(base)
    ensures n == (n / base) * base + n % base && n % base < base
    ensures n >= base ==> n / base < n
  {
  }

  datatype NumError = SyntaxError | RangeError

  datatype Scan = Syntax | Overflow | Digits(n: nat)

  /**
   * strconv's digit loop, left to right: the first invalid digit is a syntax
   * error, the first digit that pushes the value past 2^64-1 an overflow, and
   * whichever comes first wins.
   */
  function ScanDigits(s: string, base: nat): (r: Scan)
    ensures r.Digits? ==> r.n <= MaxUint64
    decreases |s|
  {
    if s == [] then Digits(0)
    else NextDigit(ScanDigits(s[..|s| - 1], base), s[|s| - 1], base)
  }

  /** One turn of the digit loop: the scan so far, then the byte `c`. */
  function NextDigit(prev: Scan, c: char, base: nat): (r: Scan)
    ensures r.Digits? ==> r.n <= MaxUint64
    ensures !prev.Digits? ==> r == prev
  {
    match prev
    case Digits(n) =>
      var d := DigitValue(c);
      if d.None? || d.value >= base then Syntax
      else if n * base + d.value > MaxUint64 then Overflow
      else Digits(n * base + d.value)
    case other => other
  }

  /** What strconv.ParseInt(s, base, 64) returns: a value and, maybe, an error. */
  datatype IntParse = IntParse(value: int, err: Option<NumError>)

  /**
   * strconv.ParseInt(s, base, 64): an optional sign, then digits; a syntax
   * error yields 0, an out-of-range number the nearest int64.
   */
  function ParseInt(s: string, base: nat): (r: IntParse)
    ensures IsInt64(r.value)
    ensures r.err == Some(SyntaxError) ==> r.value == 0
    ensures r.err == None && s != [] && s[0] != '-' ==> r.value >= 0
    ensures s == [] ==> r.err == Some(SyntaxError)
  {
    if s == [] then IntParse(0, Some(SyntaxError))
    else
      var neg := s[0] == '-';
      var digits := if s[0] == '+' || s[0] == '-' then s[1..] else s;
      var un: Scan := if digits == [] then Syntax else ScanDigits(digits, base);
      match un
      case Syntax => IntParse(0, Some(SyntaxError))
      case Overflow => if neg then IntParse(MinInt64, Some(RangeError)) else IntParse(MaxInt64, Some(RangeError))
      case Digits(n) =>
        if !neg && n > MaxInt64 then IntParse(MaxInt64, Some(RangeError))
        else if neg && n > -MinInt64 then IntParse(MinInt64, Some(RangeError))
        else IntParse(if neg then 0 - n else n, None)
  }

  /**
   * strconv.Atoi on a 64-bit platform, as its callers here use it: the value,
   * with the error discarded (0 on a syntax error, clamped on overflow).
   */
  function Atoi(s: string): (r: int)
    ensures IsInt64(r)
  {
    ParseInt(s, 10).value
  }

  /** The byte strconv writes for digit value `k` (below 36): 0-9, then lower-case letters. */
  function DigitChar(k: nat): char
    requires k < 36
  {
    if k < 10 then ('0' as int + k) as char else ('a' as int + k - 10) as char
  }

  /** strconv.FormatUint: digits of `n` in `base`, most significant first, no leading zeros. */
  function FormatUint(n: nat, base: nat): (r: string)
    requires ValidBase(base)
    ensures r != [] && r[0] != '-' && r[0] != '+'
    decreases n
  {
    DivModBase(n, base);
    if n < base then [DigitChar(n)]
    else FormatUint(n / base, base) + [DigitChar(n % base)]
  }

  /** strconv.FormatInt; strconv.Itoa is FormatInt(n, 10). */
  function FormatInt(n: int, base: nat): (r: string)
    requires ValidBase(base)
    ensures r != []
    ensures r[0] == '-' <==> n < 0
  {
    if n < 0 then "-" + FormatUint(-n, base) else FormatUint(n, base)
  }

  /** strconv.Itoa: the decimal text of `n`, which ParseInt reads back for every int64. */
  function Itoa(n: int): (r: string)
    ensures r != [] && (r[0] == '-' <==> n < 0)
    ensures IsInt64(n) ==> ParseInt(r, 10) == IntParse(n, None)
  {
    if IsInt64(n) then ParseFormatInt(n, 10); FormatInt(n, 10)
    else FormatInt(n, 10)
  }

  lemma DigitCharValue(k: nat)
    requires k < 36
    ensures DigitValue(DigitChar(k)) == Some(k)
  {
  }

  /** The digit loop reads back what FormatUint writes. */
  lemma {:induction false} ScanFormatUint(n: nat, base: nat)
    requires ValidBase(base) && n <= MaxUint64
    ensures ScanDigits(FormatUint(n, base), base) == Digits(n)
    decreases n
  {
    if n < base {
      ScanOneDigit(n, base);
    } else {
      DivModBase(n, base);
      ScanFormatUint(n / base, base);
      ScanLastDigit(n, base);
    }
  }

  lemma ScanOneDigit(n: nat, base: nat)
    requires ValidBase(base) && n < base
    ensures ScanDigits(FormatUint(n, base), base) == Digits(n)
  {
    var s := FormatUint(n, base);
    DigitCharValue(n);
    assert s[..|s| - 1] == [];
    ScanStep(s, base, 0, n);
  }

  /** The last digit FormatUint writes extends the value of the digits before it. */
  lemma ScanLastDigit(n: nat, base: nat)
    requires ValidBase(base) && base <= n <= MaxUint64
    requires ScanDigits(FormatUint(n / base, base), base) == Digits(n / base)
    ensures ScanDigits(FormatUint(n, base), base) == Digits(n)
  {
    var s := FormatUint(n, base);
    DivModBase(n, base);
    DigitCharValue(n % base);
    assert s[..|s| - 1] == FormatUint(n / base, base);
    ScanStep(s, base, n / base, n % base);
  }

  /** One step of the digit loop: a valid last digit extends the value of the prefix. */
  lemma ScanStep(s: string, base: nat, n: nat, d: nat)
    requires s != [] && ScanDigits(s[..|s| - 1], base) == Digits(n)
    requires DigitValue(s[|s| - 1]) == Some(d) && d < base && n * base + d <= MaxUint64
    ensures ScanDigits(s, base) == Digits(n * base + d)
  {
  }

  /** FormatUint starts with one of the base's own digits. */
  lemma {:induction false} FirstDigit(n: nat, base: nat)
    requires ValidBase(base)
    ensures DigitValue(FormatUint(n, base)[0]).Some? && DigitValue(FormatUint(n, base)[0]).value < base
    decreases n
  {
    DivModBase(n, base);
    if n < base {
      DigitCharValue(n);
    } else {
      FirstDigit(n / base, base);
    }
  }

  /** A text made only of digit characters: no white space, no line break. */
  predicate AllDigits(s: string) {
    s != [] && forall k :: 0 <= k < |s| ==> DigitValue(s[k]).Some?
  }

  /** FormatUint writes only digit characters, so never white space or a line break. */
  lemma {:induction false} FormatUintDigits(n: nat, base: nat)
    requires ValidBase(base)
    ensures AllDigits(FormatUint(n, base))
    decreases n
  {
    if n < base {
      DigitCharValue(n);
    } else {
      DivModBase(n, base);
      FormatUintDigits(n / base, base);
      LastDigit(n, base);
    }
  }

  /** The digit FormatUint writes last keeps a text of digits a text of digits. */
  lemma LastDigit(n: nat, base: nat)
    requires ValidBase(base) && n >= base && AllDigits(FormatUint(n / base, base))
    ensures AllDigits(FormatUint(n, base))
  {
    var p := FormatUint(n / base, base);
    DivModBase(n, base);
    DigitCharValue(n % base);
    var s := p + [DigitChar(n % base)];
    assert FormatUint(n, base) == s;
    forall k | 0 <= k < |s|
      ensures DigitValue(s[k]).Some?
    {
      if k < |p| {
        assert s[k] == p[k];
      }
    }
  }

  /** ParseInt inverts FormatInt on every int64. */
  lemma ParseFormatInt(n: int, base: nat)
    requires ValidBase(base) && IsInt64(n)
    ensures ParseInt(FormatInt(n, base), base) == IntParse(n, None)
  {
    if n < 0 {
      ScanFormatUint(-n, base);
      ParseNegative(FormatInt(n, base), base, -n);
    } else {
      ScanFormatUint(n, base);
      ParseUnsigned(FormatUint(n, base), base, n);
    }
  }

  /** A minus sign and digits worth at most 2^63 parse to their negation. */
  lemma ParseNegative(s: string, base: nat, n: nat)
    requires s != [] && s[0] == '-' && s[1..] != [] && ScanDigits(s[1..], base) == Digits(n) && n <= -MinInt64
    ensures ParseInt(s, base) == IntParse(0 - n, None)
  {
  }

  /** Unsigned digits worth at most 2^63-1 parse to their value. */
  lemma ParseUnsigned(s: string, base: nat, n: nat)
    requires s != [] && s[0] != '-' && s[0] != '+' && ScanDigits(s, base) == Digits(n) && n <= MaxInt64
    ensures ParseInt(s, base) == IntParse(n, None)
  {
  }

  /** Atoi inverts Itoa on every int64. */
  lemma AtoiItoa(n: int)
    requires IsInt64(n)
    ensures Atoi(Itoa(n)) == n
  {
    ParseFormatInt(n, 10);
  }

  // ---------------------------------------------------------------- maps

  /**
   * `for k, v := range params { q[k] = v }`: every key of `params` is written
   * over `q`; Go's iteration order is unspecified, so keys are taken in any order.
   */
  method SetAll(q: map<string, string>, params: map<string, string>) returns (r: map<string, string>)
    ensures r.Keys == q.Keys + params.Keys
    ensures forall k :: k in params ==> r[k] == params[k]
    ensures forall k :: k in q && k !in params ==> r[k] == q[k]
  {
    r := q;
    var todo := params.Keys;
    while todo != {}
      invariant todo <= params.Keys
      invariant r.Keys == q.Keys + (params.Keys - todo)
      invariant forall k :: k in params && k !in todo ==> r[k] == params[k]
      invariant forall k :: k in q && (k !in params || k in todo) ==> r[k] == q[k]
      decreases todo
    {
      var k :| k in todo;
      r := r[k := params[k]];
      todo := todo - {k};
    }
  }
}

=== FILE: json.dfy ===
/**
 * The JSON value tree that Go's `encoding/json` produces when it decodes into
 * `interface{}`, and the text <-> value conversions, kept abstract.
 *
 * Byte strings (HTTP bodies, chunks, JSON text) are `string`s holding one
 * character per byte.
 */
module JsonValue {
  import opened Wrappers

  /** A decoded JSON value; numbers are integers in this model. */
  datatype Json =
    | Null
    | Bool(b: bool)
    | Num(n: int)
    | Str(s: string)
    | Arr(items: seq<Json>)
    | Obj(members: seq<(string, Json)>)

  /**
   * The JSON text conversions of `encoding/json`, as opaque total functions:
   * `unmarshal` parses a whole text (`json.Unmarshal`), `decodeFirst` parses the
   * first value of a stream (`json.NewDecoder(...).Decode`), `marshal` writes a
   * value (`json.Marshal`).
   */
  datatype Codec = Codec(
    unmarshal: string -> Option<Json>,
    decodeFirst: string -> Option<Json>,
    marshal: Json -> string)

  /**
   * A codec whose parsers read back everything its printer writes; no value
   * is printed as the empty text.
   */
  ghost predicate Lawful(c: Codec) {
    forall j: Json ::
      && c.unmarshal(c.marshal(j)) == Some(j)
      && c.decodeFirst(c.marshal(j)) == Some(j)
      && c.marshal(j) != []
  }

  /** `json.Unmarshal` into `[]interface{}`: `null` is the empty list, an array its items. */
  function AsList(j: Option<Json>): (r: Option<seq<Json>>)
    ensures r.Some? <==> j == Some(Null) || (j.Some? && j.value.Arr?)
    ensures j == Some(Null) ==> r == Some([])
    ensures j.Some? && j.value.Arr? ==> r == Some(j.value.items)
  {
    match j
    case Some(Null) => Some([])
    case Some(Arr(items)) => Some(items)
    case _ => None
  }

  /** Number of nodes of a value; the termination measure of the decoders. */
  function Size(j: Json): nat {
    match j
    case Arr(items) => 1 + SizeOf(items)
    case _ => 1
  }

  function SizeOf(items: seq<Json>): nat {
    if items == [] then 0 else Size(items[0]) + SizeOf(items[1..])
  }

  /** Every element of a sequence is no larger than the whole sequence. */
  lemma {:induction false} ElementSize(items: seq<Json>, i: nat)
    requires i < |items|
    ensures Size(items[i]) <= SizeOf(items)
    ensures Size(items[i]) < SizeOf(items) || |items| == 1
  {
    if i > 0 {
      ElementSize(items[1..], i - 1);
    } else if |items| > 1 {
      assert Size(items[1]) >= 1;
      assert SizeOf(items[1..]) >= Size(items[1..][0]);
    }
  }
}

=== FILE: protodecode.dfy ===
/**
 * The batchexecute protobuf decoder as the Go code runs it: a message object
 * whose fields are set in place, loops over positions and list items, and a
 * fresh message for every nested value. Each method is proved to compute what
 * the value-level definition in `ProtoJson` computes.
 */
module ProtoJsonDecoder {
  import opened Wrappers
  import opened JsonValue
  import opened ProtoJson

  /** A protobuf message under construction: its type's fields and the values set so far. */
  class Message {
    const descriptor: seq<Field>
    var values: map<nat, Value>

    constructor (descriptor: seq<Field>)
      ensures this.descriptor == descriptor && values == map[]
    {
      this.descriptor := descriptor;
      values := map[];
    }

    /** The message's current contents as a value. */
    function Snapshot(): Msg
      reads this
    {
      Msg(values)
    }
  }

  /** The error a value-level result carries, if any (Go's `error` return). */
  function ErrorOf<T>(r: Result<T, ProtoError>): (e: Option<ProtoError>)
    ensures e.None? <==> r.Ok?
    ensures r.Err? ==> e == Some(r.error)
  {
    if r.Err? then Some(r.error) else None
  }

  /**
   * Unmarshal: the bytes must be a JSON array (or null); its elements are
   * then read into `m` position by position.
   */
  method Unmarshal(c: Codec, reg: Registry, o: Options, b: string, m: Message) returns (err: Option<ProtoError>)
    modifies m
    ensures AsList(c.unmarshal(b)).None? ==> err == Some(InvalidJsonArray)
    ensures AsList(c.unmarshal(b)).Some? ==>
      var s := Populate(reg, o, m.descriptor, old(m.Snapshot()), AsList(c.unmarshal(b)).value);
      err == ErrorOf(s) && (s.Ok? ==> m.Snapshot() == s.value)
    ensures old(m.values) == map[] ==>
      var s := Decode(c, reg, o, m.descriptor, b);
      err == ErrorOf(s) && (s.Ok? ==> m.Snapshot() == s.value)
  {
    var arr := AsList(c.unmarshal(b));
    if arr.None? {
      return Some(InvalidJsonArray);
    }
    err := PopulateMessage(reg, o, arr.value, m);
  }

  /**
   * populateMessage: each non-null element sets the field numbered by its
   * position; the message is then checked for required fields unless partial
   * messages are allowed.
   */
  method PopulateMessage(reg: Registry, o: Options, arr: seq<Json>, m: Message) returns (err: Option<ProtoError>)
    modifies m
    ensures var s := Populate(reg, o, m.descriptor, old(m.Snapshot()), arr);
      err == ErrorOf(s) && (s.Ok? ==> m.Snapshot() == s.value)
    decreases SizeOf(arr), 6
  {
    var i := 0;
    while i < |arr|
      invariant i <= |arr|
      invariant PopulateFrom(reg, o, m.descriptor, old(m.Snapshot()), arr, 0) ==
                PopulateFrom(reg, o, m.descriptor, m.Snapshot(), arr, i)
    {
      if arr[i].Null? {
        i := i + 1;
        continue;
      }
      var f := FieldByNumber(m.descriptor, i + 1);
      if f.None? {
        if !o.discardUnknown {
          return Some(NoFieldForPosition(i + 1));
        }
        i := i + 1;
        continue;
      }
      ElementSize(arr, i);
      var e := SetFieldOf(reg, o, m, f.value, arr[i]);
      if e.Some? {
        return Some(InField(f.value.name, e.value));
      }
      i := i + 1;
    }
    if !o.allowPartial && !Initialized(reg, m.descriptor, m.Snapshot()) {
      return Some(NotInitialized);
    }
    return None;
  }

  /** setField: repeated fields first, then message fields, then scalars. */
  method SetFieldOf(reg: Registry, o: Options, m: Message, f: Field, val: Json) returns (err: Option<ProtoError>)
    modifies m
    ensures var s := SetField(reg, o, old(m.Snapshot()), f, val);
      err == ErrorOf(s) && (s.Ok? ==> m.Snapshot() == s.value)
    decreases Size(val), 4
  {
    if f.repeated {
      err := SetRepeatedField(reg, o, m, f, val);
    } else if f.kind.MessageKind? {
      err := SetMessageField(reg, o, m, f, val);
    } else {
      err := SetScalarField(m, f, val);
    }
  }

  /** setScalarField: the converted value replaces the field's value. */
  method SetScalarField(m: Message, f: Field, val: Json) returns (err: Option<ProtoError>)
    modifies m
    ensures var v := ConvertValue(f.kind, val);
      err == ErrorOf(v) &&
      (v.Ok? ==> m.values == old(m.values)[f.number := v.value]) &&
      (v.Err? ==> m.values == old(m.values))
  {
    var v := ConvertValue(f.kind, val);
    if v.Err? {
      return Some(v.error);
    }
    m.values := m.values[f.number := v.value];
    return None;
  }

  /**
   * setRepeatedField: the element must be an array; its items are appended
   * in order to the list the field already holds.
   */
  method SetRepeatedField(reg: Registry, o: Options, m: Message, f: Field, val: Json) returns (err: Option<ProtoError>)
    modifies m
    ensures var s := SetRepeated(reg, o, old(m.Snapshot()), f, val);
      err == ErrorOf(s) && (s.Ok? ==> m.Snapshot() == s.value)
    decreases Size(val), 3
  {
    if !val.Arr? {
      return Some(ExpectedArrayForRepeated);
    }
    var list := ExistingList(m.Snapshot(), f.number);
    var i := 0;
    while i < |val.items|
      invariant i <= |val.items|
      invariant m.values == old(m.values)
      invariant AppendFrom(reg, o, f, ExistingList(old(m.Snapshot()), f.number), val.items, 0) ==
                AppendFrom(reg, o, f, list, val.items, i)
    {
      ElementSize(val.items, i);
      var v := AppendToList(reg, o, f, val.items[i]);
      if v.Err? {
        return Some(v.error);
      }
      list := list + [v.value];
      i := i + 1;
    }
    if list != [] {
      m.values := m.values[f.number := ListVal(list)];
    }
    return None;
  }

  /**
   * appendToList's value for one item: a message item is read into a fresh
   * message (a flattened single value fills its field 1); any other item is
   * converted to the field's kind.
   */
  method AppendToList(reg: Registry, o: Options, f: Field, item: Json) returns (r: Result<Value, ProtoError>)
    ensures r == ListItem(reg, o, f, item)
    decreases Size(item), 2
  {
    if !f.kind.MessageKind? {
      return ConvertValue(f.kind, item);
    }
    var t := f.kind.typeName;
    if t !in reg {
      return Err(UnknownMessageType(t));
    }
    if !item.Arr? {
      return Err(ExpectedArrayForMessage);
    }
    var sub := new Message(reg[t]);
    var flat := Flatten(item.items);
    var err;
    if !flat.Arr? {
      var first := FieldByNumber(sub.descriptor, 1);
      if first.None? {
        return Err(RuntimePanic);
      }
      err := SetFieldOf(reg, o, sub, first.value, flat);
    } else {
      err := PopulateMessage(reg, o, flat.items, sub);
    }
    if err.Some? {
      return Err(err.value);
    }
    return Ok(MessageVal(sub.Snapshot()));
  }

  /**
   * setMessageField: the element must be an array; a fresh message of the
   * field's type is filled position by position (wrapper-typed fields take
   * the shortcut first) and then set on `m`.
   */
  method SetMessageField(reg: Registry, o: Options, m: Message, f: Field, val: Json) returns (err: Option<ProtoError>)
    requires f.kind.MessageKind?
    modifies m
    ensures var s := SetMessage(reg, o, old(m.Snapshot()), f, val);
      err == ErrorOf(s) && (s.Ok? ==> m.Snapshot() == s.value)
    ensures err.Some? ==> m.values == old(m.values)
    decreases Size(val), 3
  {
    var t := f.kind.typeName;
    if t !in reg {
      return Some(UnknownMessageType(t));
    }
    var sub := new Message(reg[t]);
    if !val.Arr? {
      return Some(ExpectedArrayForMessage);
    }
    var items := val.items;
    if |items| == 0 {
      m.values := m.values[f.number := MessageVal(sub.Snapshot())];
      return None;
    }
    var i := 0;
    while i < |items|
      invariant i <= |items|
      invariant m.values == old(m.values)
      invariant NestedFrom(reg, o, t, reg[t], Empty, items, 0) ==
                NestedFrom(reg, o, t, reg[t], sub.Snapshot(), items, i)
    {
      if items[i].Null? {
        i := i + 1;
        continue;
      }
      var g := FieldByNumber(sub.descriptor, i + 1);
      if g.None? {
        if !o.discardUnknown {
          return Some(NoFieldForPosition(i + 1));
        }
        i := i + 1;
        continue;
      }
      var shortcut := WrapperShortcut(reg, g.value, items[i]);
      if shortcut.Some? {
        if shortcut.value.Err? {
          return Some(shortcut.value.error);
        }
        sub.values := sub.values[g.value.number := shortcut.value.value];
        i := i + 1;
        continue;
      }
      ElementSize(items, i);
      var e := SetFieldOf(reg, o, sub, g.value, items[i]);
      if e.Some? {
        return Some(InField(t + "." + g.value.name, e.value));
      }
      i := i + 1;
    }
    m.values := m.values[f.number := MessageVal(sub.Snapshot())];
    return None;
  }
}

=== FILE: protojson.dfy ===
/**
 * The batchexecute flavour of protobuf JSON ("beprotojson"): a message is a
 * JSON array whose element at position i holds the field numbered i+1.
 *
 * This module holds the data model (message schemas, decoded values) and the
 * decoder as pure, mutually recursive functions; ProtoJsonDecoder runs the same
 * decoding step by step and is proved equal to these functions.
 */
module ProtoJson {
  import opened Wrappers
  import opened JsonValue

  // ---------------------------------------------------------------- schema

  /**
   * The field kinds the decoder distinguishes. The signed 32-bit kinds (int32,
   * sint32, sfixed32) share one case, and so do the other width groups.
   */
  datatype Kind =
    | StringKind
    | Int32Kind
    | Int64Kind
    | Uint32Kind
    | Uint64Kind
    | BoolKind
    | BytesKind
    | EnumKind(values: seq<(string, int)>)
    | MessageKind(typeName: string)

  /** A field descriptor: number, name, kind, `repeated` (IsList) and proto2 `required`. */
  datatype Field = Field(number: nat, name: string, kind: Kind, repeated: bool, required: bool)

  /** The global type registry: the fields of every message type by full name. */
  type Registry = map<string, seq<Field>>

  /** A decoded field value. */
  datatype Value =
    | StringVal(s: string)
    | IntVal(i: int)
    | BoolVal(b: bool)
    | BytesVal(bytes: string)
    | EnumVal(e: int)
    | MessageVal(m: Msg)
    | ListVal(items: seq<Value>)

  /** A message: the populated fields by number (an empty list is unpopulated). */
  datatype Msg = Msg(fields: map<nat, Value>)

  const Empty: Msg := Msg(map[])

  /** UnmarshalOptions. */
  datatype Options = Options(discardUnknown: bool, allowPartial: bool)

  /** defaultUnmarshalOptions: unknown positions are discarded, completeness is checked. */
  const DefaultOptions: Options := Options(true, false)

  datatype ProtoError =
    | InvalidJsonArray                  // "beprotojson: invalid JSON array"
    | NoFieldForPosition(position: nat) // "no field for position %d"
    | InField(name: string, cause: ProtoError) // "field %s: %w"
    | UnknownMessageType(typeName: string)     // "failed to find message type" / "wrapper type"
    | ExpectedArrayForRepeated
    | ExpectedArrayForMessage
    | ExpectedString
    | ExpectedNumber
    | ExpectedBool
    | ExpectedNumberOrStringForEnum
    | UnknownEnumValue(name: string)
    | ExpectedStringOrBytes
    | UnsupportedKind
    | NotInitialized                    // proto.CheckInitialized failed
    | RuntimePanic                      // the Go code panics
    | NotImplemented

  /** Fields().ByNumber: the first field with number `n`, if any. */
  function FieldByNumber(fields: seq<Field>, n: nat): (r: Option<Field>)
    ensures r.Some? ==> r.value in fields && r.value.number == n
    ensures r.None? <==> forall f :: f in fields ==> f.number != n
  {
    FieldByNumberFrom(fields, n, 0)
  }

  function FieldByNumberFrom(fields: seq<Field>, n: nat, i: nat): (r: Option<Field>)
    requires i <= |fields|
    ensures r.Some? ==> r.value in fields && r.value.number == n
    ensures r.None? <==> forall j :: i <= j < |fields| ==> fields[j].number != n
    decreases |fields| - i
  {
    if i == |fields| then None
    else if fields[i].number == n then Some(fields[i])
    else FieldByNumberFrom(fields, n, i + 1)
  }

  /** Fields().ByName: the first field called `name`, if any. */
  function FieldByName(fields: seq<Field>, name: string): (r: Option<Field>)
    ensures r.Some? ==> r.value in fields && r.value.name == name
    ensures r.None? <==> forall f :: f in fields ==> f.name != name
  {
    if fields == [] then None
    else if fields[0].name == name then Some(fields[0])
    else FieldByName(fields[1..], name)
  }

  /** Enum().Values().ByName: the number of the first value called `name`, if any. */
  function EnumByName(values: seq<(string, int)>, name: string): (r: Option<int>)
    ensures r.Some? ==> (name, r.value) in values
    ensures r.None? <==> forall v :: v in values ==> v.0 != name
  {
    if values == [] then None
    else if values[0].0 == name then Some(values[0].1)
    else EnumByName(values[1..], name)
  }

  /** The nine well-known wrapper messages the nested-message decoder unwraps directly. */
  predicate IsWrapperType(name: string): (r: bool)
    ensures r ==> "google.protobuf." <= name
  {
    name in {
      "google.protobuf.Int32Value", "google.protobuf.Int64Value",
      "google.protobuf.UInt32Value", "google.protobuf.UInt64Value",
      "google.protobuf.FloatValue", "google.protobuf.DoubleValue",
      "google.protobuf.BoolValue", "google.protobuf.StringValue",
      "google.protobuf.BytesValue"}
  }

  /** The value shape a field kind holds. */
  predicate Fits(kind: Kind, v: Value) {
    match kind
    case StringKind => v.StringVal?
    case Int32Kind => v.IntVal?
    case Int64Kind => v.IntVal?
    case Uint32Kind => v.IntVal?
    case Uint64Kind => v.IntVal?
    case BoolKind => v.BoolVal?
    case BytesKind => v.BytesVal?
    case EnumKind(_) => v.EnumVal?
    case MessageKind(_) => v.MessageVal?
  }

  /**
   * proto.CheckInitialized: every required field is populated, and so
   * (recursively) are the required fields of every populated sub-message.
   */
  predicate Initialized(reg: Registry, fields: seq<Field>, m: Msg)
    decreases m
  {
    && (forall f :: f in fields && f.required ==> f.number in m.fields)
    && (forall f :: f in fields && f.number in m.fields && f.kind.MessageKind? && f.kind.typeName in reg ==>
          ValueInitialized(reg, reg[f.kind.typeName], m.fields[f.number]))
  }

  predicate ValueInitialized(reg: Registry, fields: seq<Field>, v: Value)
    decreases v
  {
    match v
    case MessageVal(m) => Initialized(reg, fields, m)
    case ListVal(items) => forall j :: 0 <= j < |items| ==> ValueInitialized(reg, fields, items[j])
    case _ => true
  }

  // ---------------------------------------------------------------- scalars

  /** flattenSingleValueArray: strips one-element array layers. */
  function Flatten(items: seq<Json>): (r: Json)
    ensures |items| != 1 ==> r == Arr(items)
    ensures !(r.Arr? && |r.items| == 1)
    ensures r.Arr? ==> Size(r) <= 1 + SizeOf(items)
    ensures !r.Arr? ==> Size(r) <= SizeOf(items)
  {
    if |items| != 1 then Arr(items)
    else
      assert SizeOf(items) == Size(items[0]) by { assert items[1..] == []; }
      match items[0]
      case Arr(inner) => Flatten(inner)
      case v => v
  }

  /**
   * convertValue: the value a JSON element gives a field of a scalar kind.
   * Strings also come wrapped in arrays: the first element is taken, looking
   * through nested arrays.
   */
  function ConvertValue(kind: Kind, val: Json): (r: Result<Value, ProtoError>)
    ensures r.Ok? ==> Fits(kind, r.value)
  {
    match kind
    case StringKind =>
      (match val
       case Str(s) => Ok(StringVal(s))
       case Arr(v) =>
         if |v| > 0 && v[0].Str? then Ok(StringVal(v[0].s))
         else if |v| > 0 && v[0].Arr? && ConvertValue(kind, v[0]).Ok? then ConvertValue(kind, v[0])
         else Err(ExpectedString)
       case _ => Err(ExpectedString))
    case Int32Kind => if val.Num? then Ok(IntVal(val.n)) else Err(ExpectedNumber)
    case Int64Kind => if val.Num? then Ok(IntVal(val.n)) else Err(ExpectedNumber)
    case Uint32Kind => if val.Num? then Ok(IntVal(val.n)) else Err(ExpectedNumber)
    case Uint64Kind => if val.Num? then Ok(IntVal(val.n)) else Err(ExpectedNumber)
    case BoolKind => if val.Bool? then Ok(BoolVal(val.b)) else Err(ExpectedBool)
    case EnumKind(values) =>
      (match val
       case Num(n) => Ok(EnumVal(n))
       case Str(name) =>
         (match EnumByName(values, name)
          case Some(number) => Ok(EnumVal(number))
          case None => Err(UnknownEnumValue(name)))
       case _ => Err(ExpectedNumberOrStringForEnum))
    case BytesKind => if val.Str? then Ok(BytesVal(val.s)) else Err(ExpectedStringOrBytes)
    case MessageKind(_) => Err(UnsupportedKind)
  }

  /**
   * The wrapper shortcut of setMessageField. `None`: the field is decoded the
   * ordinary way. `Some(Ok(w))`: the field is set to the wrapper `w` holding
   * the converted value. `Some(Err(e))`: decoding stops.
   */
  function WrapperShortcut(reg: Registry, g: Field, val: Json): (r: Option<Result<Value, ProtoError>>)
    ensures r.Some? ==> g.kind.MessageKind? && IsWrapperType(g.kind.typeName)
    ensures r == Some(Err(RuntimePanic)) ==> g.repeated
    ensures r.Some? && r.value.Ok? ==> !g.repeated && r.value.value.MessageVal?
    ensures g.kind.MessageKind? && IsWrapperType(g.kind.typeName) && g.kind.typeName !in reg ==>
      r == Some(Err(UnknownMessageType(g.kind.typeName)))
    ensures g.kind.MessageKind? && IsWrapperType(g.kind.typeName) && g.kind.typeName in reg ==>
      var vf := FieldByName(reg[g.kind.typeName], "value");
      && (vf.None? || ConvertValue(vf.value.kind, val).Err? ==> r == None)
      && (vf.Some? && ConvertValue(vf.value.kind, val).Ok? ==>
            r == if g.repeated then Some(Err(RuntimePanic))
                 else Some(Ok(MessageVal(Msg(map[vf.value.number := ConvertValue(vf.value.kind, val).value])))))
  {
    if !(g.kind.MessageKind? && IsWrapperType(g.kind.typeName)) then None
    else if g.kind.typeName !in reg then Some(Err(UnknownMessageType(g.kind.typeName)))
    else
      match FieldByName(reg[g.kind.typeName], "value")
      case None => None
      case Some(vf) =>
        match ConvertValue(vf.kind, val)
        case Err(_) => None
        case Ok(v) =>
          // msgReflect.Set of a message on a list field panics.
          if g.repeated then Some(Err(RuntimePanic))
          else Some(Ok(MessageVal(Msg(map[vf.number := v]))))
  }

  // ---------------------------------------------------------------- messages

  /** The field numbers positions `i..` of `arr` may set: one per non-null element. */
  function Positions(arr: seq<Json>, i: nat): set<nat> {
    set k: nat | i < k <= |arr| && Occupied(arr, k)
  }

  /** Position `k` (counting from 1) holds a non-null element. */
  predicate Occupied(arr: seq<Json>, k: nat) {
    0 < k <= |arr| && !arr[k - 1].Null?
  }

  /** `after` agrees with `before` on every field number outside `touched`. */
  predicate Keeps(before: Msg, after: Msg, touched: set<nat>) {
    after.fields - touched == before.fields - touched
  }

  lemma KeepsTrans(a: Msg, b: Msg, c: Msg, s: set<nat>, t: set<nat>)
    requires Keeps(a, b, s) && Keeps(b, c, t)
    ensures Keeps(a, c, s + t)
  {
    forall k | k !in s + t
      ensures k in a.fields <==> k in c.fields
      ensures k in a.fields ==> a.fields[k] == c.fields[k]
    {
      assert k in a.fields - s <==> k in b.fields - s;
      assert k in b.fields - t <==> k in c.fields - t;
      if k in a.fields {
        assert (a.fields - s)[k] == (b.fields - s)[k];
        assert (b.fields - t)[k] == (c.fields - t)[k];
      }
    }
  }

  lemma KeepsWiden(a: Msg, b: Msg, s: set<nat>, t: set<nat>)
    requires Keeps(a, b, s) && s <= t
    ensures Keeps(a, b, t)
  {
    forall k | k !in t
      ensures k in a.fields <==> k in b.fields
      ensures k in a.fields ==> a.fields[k] == b.fields[k]
    {
      KeepsPresent(a, b, s, k);
    }
  }

  /** A field outside `touched` is present after exactly when it was present before. */
  lemma KeepsPresent(before: Msg, after: Msg, touched: set<nat>, k: nat)
    requires Keeps(before, after, touched) && k !in touched
    ensures k in after.fields <==> k in before.fields
    ensures k in before.fields ==> after.fields[k] == before.fields[k]
  {
    assert k in after.fields - touched <==> k in before.fields - touched;
    if k in before.fields {
      assert (after.fields - touched)[k] == (before.fields - touched)[k];
    }
  }

  /** One step of a position loop: positions `i..` are position `i` (if occupied) and positions `i+1..`. */
  lemma PositionsStep(arr: seq<Json>, i: nat)
    requires i < |arr|
    ensures Positions(arr, i) == (if arr[i].Null? then {} else {i + 1}) + Positions(arr, i + 1)
  {
  }

  /** The list a repeated field already holds (Mutable(fd).List()). */
  function ExistingList(msg: Msg, n: nat): seq<Value> {
    if n in msg.fields && msg.fields[n].ListVal? then msg.fields[n].items else []
  }

  /**
   * populateMessage: positions are read in order, nulls skipped, an element
   * at a position without a field is an error unless unknown positions are
   * discarded; the whole message is then checked for completeness unless
   * partial messages are allowed.
   */
  function Populate(reg: Registry, o: Options, fields: seq<Field>, msg: Msg, arr: seq<Json>): (r: Result<Msg, ProtoError>)
    ensures r.Ok? && !o.allowPartial ==> Initialized(reg, fields, r.value)
    ensures PopulateFrom(reg, o, fields, msg, arr, 0).Err? ==> r == PopulateFrom(reg, o, fields, msg, arr, 0)
    decreases SizeOf(arr), 6, 0
  {
    var m :- PopulateFrom(reg, o, fields, msg, arr, 0);
    if !o.allowPartial && !Initialized(reg, fields, m) then Err(NotInitialized) else Ok(m)
  }

  /** The loop of populateMessage from position `i` on, with `msg` the message so far. */
  function PopulateFrom(reg: Registry, o: Options, fields: seq<Field>, msg: Msg, arr: seq<Json>, i: nat): (r: Result<Msg, ProtoError>)
    requires i <= |arr|
    decreases SizeOf(arr), 5, |arr| - i
  {
    if i == |arr| then Ok(msg)
    else if arr[i].Null? then PopulateFrom(reg, o, fields, msg, arr, i + 1)
    else
      match FieldByNumber(fields, i + 1)
      case None =>
        if !o.discardUnknown then Err(NoFieldForPosition(i + 1))
        else PopulateFrom(reg, o, fields, msg, arr, i + 1)
      case Some(f) =>
        ElementSize(arr, i);
        match SetField(reg, o, msg, f, arr[i])
        case Err(e) => Err(InField(f.name, e))
        case Ok(m) => PopulateFrom(reg, o, fields, m, arr, i + 1)
  }

  /** setField: repeated fields first, then message fields, then scalars. */
  function SetField(reg: Registry, o: Options, msg: Msg, f: Field, val: Json): (r: Result<Msg, ProtoError>)
    ensures r.Ok? ==> Keeps(msg, r.value, {f.number})
    ensures r.Ok? && !f.repeated ==> f.number in r.value.fields
    ensures r.Ok? && !f.repeated && !f.kind.MessageKind? ==> Fits(f.kind, r.value.fields[f.number])
    decreases Size(val), 4, 0
  {
    if f.repeated then SetRepeated(reg, o, msg, f, val)
    else if f.kind.MessageKind? then SetMessage(reg, o, msg, f, val)
    else
      var v :- ConvertValue(f.kind, val);
      Ok(Msg(msg.fields[f.number := v]))
  }

  /**
   * setRepeatedField: the element must be an array; each item is appended,
   * in order, to the list the field already holds.
   */
  function SetRepeated(reg: Registry, o: Options, msg: Msg, f: Field, val: Json): (r: Result<Msg, ProtoError>)
    ensures !val.Arr? ==> r == Err(ExpectedArrayForRepeated)
    ensures r.Ok? ==> Keeps(msg, r.value, {f.number})
    ensures r.Ok? ==> ExistingList(msg, f.number) <= ExistingList(r.value, f.number)
    ensures r.Ok? ==> |ExistingList(r.value, f.number)| == |ExistingList(msg, f.number)| + |val.items|
    decreases Size(val), 3, 0
  {
    if !val.Arr? then Err(ExpectedArrayForRepeated)
    else
      var list :- AppendFrom(reg, o, f, ExistingList(msg, f.number), val.items, 0);
      Ok(if list == [] then msg else Msg(msg.fields[f.number := ListVal(list)]))
  }

  /** The loop of setRepeatedField from item `i` on, with `list` the list so far. */
  function AppendFrom(reg: Registry, o: Options, f: Field, list: seq<Value>, items: seq<Json>, i: nat): (r: Result<seq<Value>, ProtoError>)
    requires i <= |items|
    ensures r.Ok? ==> |r.value| == |list| + |items| - i && list <= r.value
    decreases SizeOf(items), 5, |items| - i
  {
    if i == |items| then Ok(list)
    else
      ElementSize(items, i);
      var v :- ListItem(reg, o, f, items[i]);
      AppendFrom(reg, o, f, list + [v], items, i + 1)
  }

  /**
   * The loop appends one converted item per element, in order: it succeeds
   * exactly when every item from `i` on converts, and entry `|list| + k - i`
   * of the result is item `k`'s value.
   */
  lemma {:induction false} AppendFromItems(reg: Registry, o: Options, f: Field, list: seq<Value>, items: seq<Json>, i: nat)
    requires i <= |items|
    ensures var r := AppendFrom(reg, o, f, list, items, i);
      && (r.Ok? <==> forall k :: i <= k < |items| ==> ListItem(reg, o, f, items[k]).Ok?)
      && (r.Ok? ==> forall k :: i <= k < |items| ==> r.value[|list| + k - i] == ListItem(reg, o, f, items[k]).value)
    decreases |items| - i
  {
    if i < |items| {
      var v := ListItem(reg, o, f, items[i]);
      if v.Ok? {
        AppendFromItems(reg, o, f, list + [v.value], items, i + 1);
      }
    }
  }

  /**
   * setRepeatedField on an array succeeds exactly when every item converts,
   * and then the field's list is the old list followed by the items' values.
   */
  lemma SetRepeatedItems(reg: Registry, o: Options, msg: Msg, f: Field, val: Json)
    requires val.Arr?
    ensures var r := SetRepeated(reg, o, msg, f, val);
      var before := ExistingList(msg, f.number);
      && (r.Ok? <==> forall k :: 0 <= k < |val.items| ==> ListItem(reg, o, f, val.items[k]).Ok?)
      && (r.Ok? ==> forall k :: 0 <= k < |val.items| ==>
            ExistingList(r.value, f.number)[|before| + k] == ListItem(reg, o, f, val.items[k]).value)
  {
    AppendFromItems(reg, o, f, ExistingList(msg, f.number), val.items, 0);
  }

  /**
   * appendToList's value for one item. An item of a message list must be an
   * array; flattened, a single value fills field 1 of a new message, and an
   * array fills a new message position by position (completeness checked).
   */
  function ListItem(reg: Registry, o: Options, f: Field, item: Json): (r: Result<Value, ProtoError>)
    ensures r.Ok? && f.kind.MessageKind? ==> r.value.MessageVal?
    ensures r.Ok? && !f.kind.MessageKind? ==> Fits(f.kind, r.value)
    ensures f.kind.MessageKind? && f.kind.typeName in reg && !item.Arr? ==> r == Err(ExpectedArrayForMessage)
    decreases Size(item), 2, 0
  {
    if f.kind.MessageKind? then
      if f.kind.typeName !in reg then Err(UnknownMessageType(f.kind.typeName))
      else if !item.Arr? then Err(ExpectedArrayForMessage)
      else
        var sub := reg[f.kind.typeName];
        var flat := Flatten(item.items);
        if !flat.Arr? then
          match FieldByNumber(sub, 1)
          case None => Err(RuntimePanic)   // setField with a nil descriptor
          case Some(first) =>
            var m :- SetField(reg, o, Empty, first, flat);
            Ok(MessageVal(m))
        else
          var m :- Populate(reg, o, sub, Empty, flat.items);
          Ok(MessageVal(m))
    else ConvertValue(f.kind, item)
  }

  /**
   * setMessageField: the element must be an array; an empty array sets an
   * empty message; otherwise a new message is filled position by position
   * and set. No completeness check happens here.
   */
  function SetMessage(reg: Registry, o: Options, msg: Msg, f: Field, val: Json): (r: Result<Msg, ProtoError>)
    requires f.kind.MessageKind?
    ensures r.Ok? ==> Keeps(msg, r.value, {f.number}) && f.number in r.value.fields && r.value.fields[f.number].MessageVal?
    ensures f.kind.typeName in reg && val == Arr([]) ==> r == Ok(Msg(msg.fields[f.number := MessageVal(Empty)]))
    ensures f.kind.typeName in reg && !val.Arr? ==> r == Err(ExpectedArrayForMessage)
    decreases Size(val), 3, 0
  {
    var t := f.kind.typeName;
    if t !in reg then Err(UnknownMessageType(t))
    else if !val.Arr? then Err(ExpectedArrayForMessage)
    else if val.items == [] then Ok(Msg(msg.fields[f.number := MessageVal(Empty)]))
    else
      var sub :- NestedFrom(reg, o, t, reg[t], Empty, val.items, 0);
      Ok(Msg(msg.fields[f.number := MessageVal(sub)]))
  }

  /**
   * The loop of setMessageField from position `i` on: like populateMessage,
   * but wrapper-typed fields take the shortcut first and errors name the
   * field's full name.
   */
  function NestedFrom(reg: Registry, o: Options, typeName: string, fields: seq<Field>, msg: Msg, items: seq<Json>, i: nat): (r: Result<Msg, ProtoError>)
    requires i <= |items|
    decreases SizeOf(items), 5, |items| - i
  {
    if i == |items| then Ok(msg)
    else if items[i].Null? then NestedFrom(reg, o, typeName, fields, msg, items, i + 1)
    else
      match FieldByNumber(fields, i + 1)
      case None =>
        if !o.discardUnknown then Err(NoFieldForPosition(i + 1))
        else NestedFrom(reg, o, typeName, fields, msg, items, i + 1)
      case Some(g) =>
        match WrapperShortcut(reg, g, items[i])
        case Some(Err(e)) => Err(e)
        case Some(Ok(w)) => NestedFrom(reg, o, typeName, fields, Msg(msg.fields[g.number := w]), items, i + 1)
        case None =>
          ElementSize(items, i);
          match SetField(reg, o, msg, g, items[i])
          case Err(e) => Err(InField(typeName + "." + g.name, e))
          case Ok(m) => NestedFrom(reg, o, typeName, fields, m, items, i + 1)
  }

  /**
   * Unmarshal into a fresh message of the type with `fields`: the text must
   * decode to a JSON array (or null, the empty array).
   */
  function Decode(c: Codec, reg: Registry, o: Options, fields: seq<Field>, b: string): (r: Result<Msg, ProtoError>)
    ensures AsList(c.unmarshal(b)).None? ==> r == Err(InvalidJsonArray)
    ensures r.Ok? && !o.allowPartial ==> Initialized(reg, fields, r.value)
  {
    match AsList(c.unmarshal(b))
    case None => Err(InvalidJsonArray)
    case Some(arr) => Populate(reg, o, fields, Empty, arr)
  }

  /** Marshal is not implemented: every message fails to encode. */
  function Marshal(m: Msg): (r: Result<string, ProtoError>)
    ensures r.Err? && r.error == NotImplemented
  {
    Err(NotImplemented)
  }

  // ---------------------------------------------------------------- properties

  /**
   * populateMessage touches only the fields of occupied positions: every
   * other field keeps its value, and every occupied position with a singular
   * field ends up populated.
   */
  lemma {:induction false} PopulateTouches(reg: Registry, o: Options, fields: seq<Field>, msg: Msg, arr: seq<Json>, i: nat)
    requires i <= |arr|
    ensures var r := PopulateFrom(reg, o, fields, msg, arr, i);
      r.Ok? ==> Keeps(msg, r.value, Positions(arr, i))
    ensures var r := PopulateFrom(reg, o, fields, msg, arr, i);
      r.Ok? ==> forall j :: i <= j < |arr| && !arr[j].Null? && Singular(fields, j + 1) ==> j + 1 in r.value.fields
    decreases |arr| - i
  {
    if i < |arr| {
      PositionsStep(arr, i);
      if arr[i].Null? || FieldByNumber(fields, i + 1).None? {
        PopulateTouches(reg, o, fields, msg, arr, i + 1);
        var r := PopulateFrom(reg, o, fields, msg, arr, i + 1);
        if r.Ok? {
          KeepsWiden(msg, r.value, Positions(arr, i + 1), Positions(arr, i));
        }
      } else {
        var f := FieldByNumber(fields, i + 1).value;
        var m := SetField(reg, o, msg, f, arr[i]);
        if m.Ok? {
          PopulateTouches(reg, o, fields, m.value, arr, i + 1);
          var r := PopulateFrom(reg, o, fields, m.value, arr, i + 1);
          if r.Ok? {
            KeepsTrans(msg, m.value, r.value, {i + 1}, Positions(arr, i + 1));
            if !f.repeated {
              KeepsPresent(m.value, r.value, Positions(arr, i + 1), i + 1);
            }
          }
        }
      }
    }
  }

  /** Position `k` names a singular (non-repeated) field. */
  predicate Singular(fields: seq<Field>, k: nat) {
    FieldByNumber(fields, k).Some? && !FieldByNumber(fields, k).value.repeated
  }

  /** Unless unknown positions are discarded, a successful decode has a field for every occupied position. */
  lemma {:induction false} PopulateStrict(reg: Registry, o: Options, fields: seq<Field>, msg: Msg, arr: seq<Json>, i: nat)
    requires i <= |arr| && !o.discardUnknown
    requires PopulateFrom(reg, o, fields, msg, arr, i).Ok?
    ensures forall j :: i <= j < |arr| && !arr[j].Null? ==> FieldByNumber(fields, j + 1).Some?
    decreases |arr| - i
  {
    if i < |arr| {
      if arr[i].Null? {
        PopulateStrict(reg, o, fields, msg, arr, i + 1);
      } else {
        var f := FieldByNumber(fields, i + 1).value;
        var m := SetField(reg, o, msg, f, arr[i]);
        PopulateStrict(reg, o, fields, m.value, arr, i + 1);
      }
    }
  }

  /** setMessageField's loop likewise touches only the fields of occupied positions. */
  lemma {:induction false} NestedTouches(reg: Registry, o: Options, t: string, fields: seq<Field>, msg: Msg, items: seq<Json>, i: nat)
    requires i <= |items|
    ensures var r := NestedFrom(reg, o, t, fields, msg, items, i);
      r.Ok? ==> Keeps(msg, r.value, Positions(items, i))
    decreases |items| - i
  {
    if i < |items| {
      PositionsStep(items, i);
      if items[i].Null? || FieldByNumber(fields, i + 1).None? {
        NestedTouches(reg, o, t, fields, msg, items, i + 1);
        var r := NestedFrom(reg, o, t, fields, msg, items, i + 1);
        if r.Ok? {
          KeepsWiden(msg, r.value, Positions(items, i + 1), Positions(items, i));
        }
      } else {
        var g := FieldByNumber(fields, i + 1).value;
        var w := WrapperShortcut(reg, g, items[i]);
        var m := if w.Some? && w.value.Ok? then Ok(Msg(msg.fields[g.number := w.value.value]))
                 else SetField(reg, o, msg, g, items[i]);
        if !(w.Some? && w.value.Err?) && m.Ok? {
          NestedTouches(reg, o, t, fields, m.value, items, i + 1);
          var r := NestedFrom(reg, o, t, fields, m.value, items, i + 1);
          assert NestedFrom(reg, o, t, fields, msg, items, i) == r;
          if r.Ok? {
            assert Keeps(msg, m.value, {i + 1});
            KeepsTrans(msg, m.value, r.value, {i + 1}, Positions(items, i + 1));
          }
        }
      }
    }
  }

  /** A decoded message holds only fields of occupied positions of the array. */
  lemma DecodeTouches(c: Codec, reg: Registry, o: Options, fields: seq<Field>, b: string)
    requires Decode(c, reg, o, fields, b).Ok?
    ensures AsList(c.unmarshal(b)).Some?
    ensures Decode(c, reg, o, fields, b).value.fields.Keys <= Positions(AsList(c.unmarshal(b)).value, 0)
  {
    var arr := AsList(c.unmarshal(b)).value;
    var r := Decode(c, reg, o, fields, b).value;
    PopulateTouches(reg, o, fields, Empty, arr, 0);
    assert PopulateFrom(reg, o, fields, Empty, arr, 0) == Ok(r);
    forall k | k in r.fields
      ensures k in Positions(arr, 0)
    {
      if k !in Positions(arr, 0) {
        KeepsPresent(Empty, r, Positions(arr, 0), k);
      }
    }
  }

  /** The first string reached by descending through first elements of arrays. */
  function FirstString(j: Json): Option<string> {
    match j
    case Str(s) => Some(s)
    case Arr(items) => if items != [] then FirstString(items[0]) else None
    case _ => None
  }

  /** A string field accepts exactly the elements whose first-element descent ends at a string, and takes that string. */
  lemma {:induction false} ConvertStringFirst(j: Json)
    ensures ConvertValue(StringKind, j) == (match FirstString(j)
                                            case Some(s) => Ok(StringVal(s))
                                            case None => Err(ExpectedString))
  {
    match j
    case Arr(items) =>
      if items != [] && items[0].Arr? {
        ConvertStringFirst(items[0]);
      }
    case _ =>
  }

  /**
   * The other scalar kinds: an integer field takes only a number, a bool field only a bool, a bytes field only
   * a string, an enum field a number as the enum number or a string looked up
   * by name, an unknown name being an error that names it.
   */
  lemma ScalarKinds(kind: Kind, values: seq<(string, int)>, val: Json)
    ensures kind.Int32Kind? || kind.Int64Kind? || kind.Uint32Kind? || kind.Uint64Kind? ==>
      ConvertValue(kind, val) == if val.Num? then Ok(IntVal(val.n)) else Err(ExpectedNumber)
    ensures ConvertValue(BoolKind, val) == if val.Bool? then Ok(BoolVal(val.b)) else Err(ExpectedBool)
    ensures ConvertValue(BytesKind, val) == if val.Str? then Ok(BytesVal(val.s)) else Err(ExpectedStringOrBytes)
    ensures val.Num? ==> ConvertValue(EnumKind(values), val) == Ok(EnumVal(val.n))
    ensures val.Str? ==>
      (ConvertValue(EnumKind(values), val).Ok? <==> exists v :: v in values && v.0 == val.s)
    ensures val.Str? && ConvertValue(EnumKind(values), val).Ok? ==>
      (val.s, ConvertValue(EnumKind(values), val).value.e) in values
    ensures val.Str? && ConvertValue(EnumKind(values), val).Err? ==>
      ConvertValue(EnumKind(values), val).error == UnknownEnumValue(val.s)
    ensures !val.Num? && !val.Str? ==> ConvertValue(EnumKind(values), val) == Err(ExpectedNumberOrStringForEnum)
  {
  }

  /** The JSON element a scalar value is written as (composite values have none). */
  function EncodeScalar(v: Value): Json {
    match v
    case StringVal(s) => Str(s)
    case IntVal(i) => Num(i)
    case BoolVal(b) => Bool(b)
    case BytesVal(b) => Str(b)
    case EnumVal(e) => Num(e)
    case _ => Null
  }

  /** Every scalar value of a field's kind is read back from its encoding. */
  lemma ConvertEncode(kind: Kind, v: Value)
    requires !kind.MessageKind? && Fits(kind, v)
    ensures ConvertValue(kind, EncodeScalar(v)) == Ok(v)
    ensures EncodeScalar(v) != Null
  {
  }

  /** A message whose populated fields all lie in 1..n, where every number names a singular scalar field. */
  ghost predicate FlatScalars(fields: seq<Field>, m: Msg, n: nat) {
    && (forall k :: 1 <= k <= n ==>
          (FieldByNumber(fields, k).Some? &&
           !FieldByNumber(fields, k).value.repeated && !FieldByNumber(fields, k).value.kind.MessageKind?))
    && (forall k :: k in m.fields ==>
          (1 <= k <= n && FieldByNumber(fields, k).Some? && Fits(FieldByNumber(fields, k).value.kind, m.fields[k])))
  }

  /** The positional encoding of such a message: field k at position k-1, null where unpopulated. */
  function EncodeFlat(m: Msg, n: nat): (arr: seq<Json>)
    ensures |arr| == n
  {
    seq(n, j requires 0 <= j < n => if j + 1 in m.fields then EncodeScalar(m.fields[j + 1]) else Null)
  }

  /** The fields of `m` numbered at most `i`. */
  function Below(m: Msg, i: nat): Msg {
    Msg(map k | k in m.fields && k <= i :: m.fields[k])
  }

  lemma {:induction false} FlatFrom(reg: Registry, o: Options, fields: seq<Field>, m: Msg, n: nat, i: nat)
    requires FlatScalars(fields, m, n) && i <= n
    ensures PopulateFrom(reg, o, fields, Below(m, i), EncodeFlat(m, n), i) == Ok(m)
    decreases n - i
  {
    var arr := EncodeFlat(m, n);
    if i == n {
      assert Below(m, n) == m;
    } else {
      FlatFrom(reg, o, fields, m, n, i + 1);
      FlatStep(reg, o, fields, m, n, i);
    }
  }

  /** One position of the round trip: position `i` adds field i+1 of `m`, if populated. */
  lemma FlatStep(reg: Registry, o: Options, fields: seq<Field>, m: Msg, n: nat, i: nat)
    requires FlatScalars(fields, m, n) && i < n
    ensures PopulateFrom(reg, o, fields, Below(m, i), EncodeFlat(m, n), i) ==
            PopulateFrom(reg, o, fields, Below(m, i + 1), EncodeFlat(m, n), i + 1)
  {
    if i + 1 !in m.fields {
      assert EncodeFlat(m, n)[i] == Null;
      assert Below(m, i + 1) == Below(m, i);
    } else {
      FlatSet(reg, o, fields, m, n, i);
    }
  }

  lemma FlatSet(reg: Registry, o: Options, fields: seq<Field>, m: Msg, n: nat, i: nat)
    requires FlatScalars(fields, m, n) && i < n && i + 1 in m.fields
    ensures PopulateFrom(reg, o, fields, Below(m, i), EncodeFlat(m, n), i) ==
            PopulateFrom(reg, o, fields, Below(m, i + 1), EncodeFlat(m, n), i + 1)
  {
    var arr := EncodeFlat(m, n);
    var v := m.fields[i + 1];
    var f := FieldByNumber(fields, i + 1).value;
    assert !f.repeated && !f.kind.MessageKind? && Fits(f.kind, v);
    ConvertEncode(f.kind, v);
    assert arr[i] == EncodeScalar(v);
    var next := Msg(Below(m, i).fields[i + 1 := v]);
    assert next == Below(m, i + 1) by {
      assert next.fields == Below(m, i + 1).fields;
    }
    ScalarStep(reg, o, fields, Below(m, i), arr, i, v);
  }

  /** A position whose field is a singular scalar and whose element converts to `v` sets that field to `v`. */
  lemma ScalarStep(reg: Registry, o: Options, fields: seq<Field>, msg: Msg, arr: seq<Json>, i: nat, v: Value)
    requires i < |arr| && !arr[i].Null? && FieldByNumber(fields, i + 1).Some?
    requires var f := FieldByNumber(fields, i + 1).value;
      !f.repeated && !f.kind.MessageKind? && ConvertValue(f.kind, arr[i]) == Ok(v)
    ensures PopulateFrom(reg, o, fields, msg, arr, i) == PopulateFrom(reg, o, fields, Msg(msg.fields[i + 1 := v]), arr, i + 1)
  {
    var f := FieldByNumber(fields, i + 1).value;
    assert SetField(reg, o, msg, f, arr[i]) == Ok(Msg(msg.fields[i + 1 := v]));
  }

  /**
   * Round trip: a message of singular scalar fields, written position by
   * position, decodes back to itself (when complete, or partial is allowed).
   */
  lemma FlatRoundTrip(reg: Registry, o: Options, fields: seq<Field>, m: Msg, n: nat)
    requires FlatScalars(fields, m, n)
    requires o.allowPartial || Initialized(reg, fields, m)
    ensures Populate(reg, o, fields, Empty, EncodeFlat(m, n)) == Ok(m)
  {
    assert Below(m, 0) == Empty;
    FlatFrom(reg, o, fields, m, n, 0);
  }

  /**
   * With unknown positions discarded, an element at a position the message
   * has no field for is ignored exactly like null.
   */
  lemma {:induction false} DiscardedPosition(reg: Registry, o: Options, fields: seq<Field>, msg: Msg, arr: seq<Json>, i: nat, j: nat)
    requires o.discardUnknown && i <= |arr| && j < |arr|
    requires FieldByNumber(fields, j + 1).None?
    ensures PopulateFrom(reg, o, fields, msg, arr, i) == PopulateFrom(reg, o, fields, msg, arr[j := Null], i)
    decreases |arr| - i
  {
    var arr' := arr[j := Null];
    if i < |arr| {
      if i == j || arr[i].Null? || FieldByNumber(fields, i + 1).None? {
        DiscardedPosition(reg, o, fields, msg, arr, i + 1, j);
      } else {
        var f := FieldByNumber(fields, i + 1).value;
        assert arr'[i] == arr[i];
        var m := SetField(reg, o, msg, f, arr[i]);
        if m.Ok? {
          DiscardedPosition(reg, o, fields, m.value, arr, i + 1, j);
        }
      }
    }
  }

  /** The same for a whole message, completeness check included. */
  lemma DiscardUnknownIgnores(reg: Registry, fields: seq<Field>, arr: seq<Json>, j: nat)
    requires j < |arr| && FieldByNumber(fields, j + 1).None?
    ensures Populate(reg, DefaultOptions, fields, Empty, arr) == Populate(reg, DefaultOptions, fields, Empty, arr[j := Null])
  {
    DiscardedPosition(reg, DefaultOptions, fields, Empty, arr, 0, j);
  }

  /**
   * For a message type without wrapper-typed fields, setMessageField's loop
   * succeeds exactly when populateMessage's loop does, with the same message:
   * they differ only in how errors name the field.
   */
  lemma {:induction false} NestedAgrees(reg: Registry, o: Options, t: string, fields: seq<Field>, msg: Msg, items: seq<Json>, i: nat)
    requires i <= |items|
    requires forall g :: g in fields ==> !(g.kind.MessageKind? && IsWrapperType(g.kind.typeName))
    ensures NestedFrom(reg, o, t, fields, msg, items, i).Ok? == PopulateFrom(reg, o, fields, msg, items, i).Ok?
    ensures NestedFrom(reg, o, t, fields, msg, items, i).Ok? ==>
      NestedFrom(reg, o, t, fields, msg, items, i).value == PopulateFrom(reg, o, fields, msg, items, i).value
    decreases |items| - i
  {
    if i < |items| {
      if items[i].Null? || FieldByNumber(fields, i + 1).None? {
        NestedAgrees(reg, o, t, fields, msg, items, i + 1);
      } else {
        var g := FieldByNumber(fields, i + 1).value;
        assert WrapperShortcut(reg, g, items[i]) == None;
        var m := SetField(reg, o, msg, g, items[i]);
        if m.Ok? {
          NestedAgrees(reg, o, t, fields, m.value, items, i + 1);
        }
      }
    }
  }

  /**
   * The wrapper shortcut exists only inside nested messages: there a singular
   * wrapper-typed field takes a bare value whose kind matches the wrapper's
   * `value` field, and a repeated one makes the code panic; populateMessage
   * has no shortcut, so the same bare value is rejected at the top level.
   */
  lemma WrapperOnlyNested(reg: Registry, o: Options, t: string, fields: seq<Field>, msg: Msg, items: seq<Json>, i: nat, vf: Field, v: Value)
    requires i < |items| && FieldByNumber(fields, i + 1).Some?
    requires var g := FieldByNumber(fields, i + 1).value;
      g.kind.MessageKind? && IsWrapperType(g.kind.typeName) && g.kind.typeName in reg &&
      FieldByName(reg[g.kind.typeName], "value") == Some(vf)
    requires ConvertValue(vf.kind, items[i]) == Ok(v) && !items[i].Arr?
    ensures var g := FieldByNumber(fields, i + 1).value;
      && (!g.repeated ==>
            (NestedFrom(reg, o, t, fields, msg, items, i) ==
             NestedFrom(reg, o, t, fields, Msg(msg.fields[i + 1 := MessageVal(Msg(map[vf.number := v]))]), items, i + 1)))
      && (g.repeated ==> NestedFrom(reg, o, t, fields, msg, items, i) == Err(RuntimePanic))
      && (!g.repeated ==> PopulateFrom(reg, o, fields, msg, items, i) == Err(InField(g.name, ExpectedArrayForMessage)))
  {
    assert !items[i].Null? by { assert ConvertValue(vf.kind, items[i]).Ok?; }
  }

  /**
   * A wrapper-typed field whose wrapper has no `value` field, or whose element
   * does not convert to that field's kind, falls back to ordinary decoding.
   */
  lemma WrapperFallsBack(reg: Registry, o: Options, t: string, fields: seq<Field>, msg: Msg, items: seq<Json>, i: nat)
    requires i < |items| && !items[i].Null? && FieldByNumber(fields, i + 1).Some?
    requires var g := FieldByNumber(fields, i + 1).value;
      g.kind.MessageKind? && IsWrapperType(g.kind.typeName) && g.kind.typeName in reg &&
      var vf := FieldByName(reg[g.kind.typeName], "value");
      vf.None? || ConvertValue(vf.value.kind, items[i]).Err?
    ensures var g := FieldByNumber(fields, i + 1).value;
      NestedFrom(reg, o, t, fields, msg, items, i) ==
        match SetField(reg, o, msg, g, items[i])
        case Err(e) => Err(InField(t + "." + g.name, e))
        case Ok(m) => NestedFrom(reg, o, t, fields, m, items, i + 1)
  {
  }

  /**
   * An item of a message list that flattens to a single value fills field 1
   * of a fresh message; one that stays an array of other than one element is
   * decoded as a whole message.
   */
  lemma ListItemShapes(reg: Registry, o: Options, f: Field, item: Json)
    requires f.kind.MessageKind? && f.kind.typeName in reg && item.Arr?
    ensures var sub := reg[f.kind.typeName];
      var flat := Flatten(item.items);
      && (!flat.Arr? && FieldByNumber(sub, 1).None? ==> ListItem(reg, o, f, item) == Err(RuntimePanic))
      && (!flat.Arr? && FieldByNumber(sub, 1).Some? ==>
            ListItem(reg, o, f, item) == (match SetField(reg, o, Empty, FieldByNumber(sub, 1).value, flat)
                                          case Ok(m) => Ok(MessageVal(m))
                                          case Err(e) => Err(e)))
      && (|item.items| != 1 ==> ListItem(reg, o, f, item) == (match Populate(reg, o, sub, Empty, item.items)
                                                            case Ok(m) => Ok(MessageVal(m))
                                                            case Err(e) => Err(e)))
  {
  }

  // ---------------------------------------------------------------- examples

  const SourceIdType: string := "notebooklm.v1alpha1.SourceId"
  const SourceType: string := "notebooklm.v1alpha1.Source"

  /** The slice of the notebook schema the decoding examples use. */
  const ExampleRegistry: Registry := map[
    SourceIdType := [Field(1, "source_id", StringKind, false, false)],
    SourceType := [Field(1, "source_id", MessageKind(SourceIdType), false, false),
                   Field(2, "title", StringKind, false, false)]]

  const ProjectFields: seq<Field> := [
    Field(1, "title", StringKind, false, false),
    Field(2, "sources", MessageKind(SourceType), true, false),
    Field(3, "project_id", StringKind, false, false),
    Field(4, "emoji", StringKind, false, false)]

  const SourceItem: Json := Arr([Arr([Str("source1")]), Str("Source One")])

  const DecodedSource: Msg := Msg(map[1 := MessageVal(Msg(map[1 := StringVal("source1")])), 2 := StringVal("Source One")])

  /** One source, `[["source1"], "Source One"]`: a nested id message, then a title. */
  lemma SourceDecodes()
    ensures ListItem(ExampleRegistry, DefaultOptions, ProjectFields[1], SourceItem) == Ok(MessageVal(DecodedSource))
  {
    var reg, o := ExampleRegistry, DefaultOptions;
    var sourceId := Msg(map[1 := StringVal("source1")]);
    var m1 := Msg(map[1 := MessageVal(sourceId)]);
    SourceIdDecodes();
    assert PopulateFrom(reg, o, reg[SourceType], m1, SourceItem.items, 1) == Ok(DecodedSource) by {
      assert FieldByNumber(reg[SourceType], 2) == Some(reg[SourceType][1]);
    }
    assert Initialized(reg, reg[SourceType], DecodedSource) by {
      assert ValueInitialized(reg, reg[SourceIdType], MessageVal(sourceId));
    }
  }

  lemma SourceIdDecodes()
    ensures SetField(ExampleRegistry, DefaultOptions, Empty, ExampleRegistry[SourceType][0], Arr([Str("source1")])) ==
            Ok(Msg(map[1 := MessageVal(Msg(map[1 := StringVal("source1")]))]))
    ensures PopulateFrom(ExampleRegistry, DefaultOptions, ExampleRegistry[SourceType], Empty, SourceItem.items, 0) ==
            PopulateFrom(ExampleRegistry, DefaultOptions, ExampleRegistry[SourceType],
                         Msg(map[1 := MessageVal(Msg(map[1 := StringVal("source1")]))]), SourceItem.items, 1)
  {
    var reg, o := ExampleRegistry, DefaultOptions;
    assert FieldByNumber(reg[SourceIdType], 1) == Some(reg[SourceIdType][0]);
    assert NestedFrom(reg, o, SourceIdType, reg[SourceIdType], Empty, [Str("source1")], 0) == Ok(Msg(map[1 := StringVal("source1")]));
    assert FieldByNumber(reg[SourceType], 1) == Some(reg[SourceType][0]);
  }

  /** One step of populateMessage's loop, given what setField makes of the element. */
  lemma FieldStep(reg: Registry, o: Options, fields: seq<Field>, msg: Msg, arr: seq<Json>, i: nat, f: Field, m: Msg)
    requires i < |arr| && !arr[i].Null? && FieldByNumber(fields, i + 1) == Some(f)
    requires SetField(reg, o, msg, f, arr[i]) == Ok(m)
    ensures PopulateFrom(reg, o, fields, msg, arr, i) == PopulateFrom(reg, o, fields, m, arr, i + 1)
  {
  }

  /** A string element sets a singular string field. */
  lemma StringSet(reg: Registry, o: Options, msg: Msg, f: Field, s: string)
    requires !f.repeated && f.kind == StringKind
    ensures SetField(reg, o, msg, f, Str(s)) == Ok(Msg(msg.fields[f.number := StringVal(s)]))
  {
  }

  /** An empty array leaves an unpopulated repeated field unpopulated. */
  lemma EmptyRepeated(reg: Registry, o: Options, msg: Msg, f: Field)
    requires f.repeated && f.number !in msg.fields
    ensures SetField(reg, o, msg, f, Arr([])) == Ok(msg)
  {
    assert AppendFrom(reg, o, f, [], [], 0) == Ok([]);
  }

  /** `["project2", [[["source1"], "Source One"]], "id2", "📚"]` decodes to a project with one source. */
  lemma ProjectWithSources()
    ensures Populate(ExampleRegistry, DefaultOptions, ProjectFields, Empty,
      [Str("project2"), Arr([SourceItem]), Str("id2"), Str("\U{1F4DA}")])
      == Ok(Msg(map[
        1 := StringVal("project2"),
        2 := ListVal([MessageVal(DecodedSource)]),
        3 := StringVal("id2"),
        4 := StringVal("\U{1F4DA}")]))
  {
    var m := ProjectPositions();
    ProjectInitialized(m);
  }

  /** The position loop of the example, before the completeness check. */
  lemma ProjectPositions() returns (m4: Msg)
    ensures m4 == Msg(map[
        1 := StringVal("project2"),
        2 := ListVal([MessageVal(DecodedSource)]),
        3 := StringVal("id2"),
        4 := StringVal("\U{1F4DA}")])
    ensures PopulateFrom(ExampleRegistry, DefaultOptions, ProjectFields, Empty,
      [Str("project2"), Arr([SourceItem]), Str("id2"), Str("\U{1F4DA}")], 0) == Ok(m4)
  {
    var reg, o := ExampleRegistry, DefaultOptions;
    var arr := [Str("project2"), Arr([SourceItem]), Str("id2"), Str("\U{1F4DA}")];
    var m1 := Msg(map[1 := StringVal("project2")]);
    var m2 := Msg(m1.fields[2 := ListVal([MessageVal(DecodedSource)])]);
    m4 := Msg(m2.fields[3 := StringVal("id2")][4 := StringVal("\U{1F4DA}")]);
    ProjectFieldNumbers();
    StringSet(reg, o, Empty, ProjectFields[0], "project2");
    FieldStep(reg, o, ProjectFields, Empty, arr, 0, ProjectFields[0], m1);
    SourcesSet(m1);
    FieldStep(reg, o, ProjectFields, m1, arr, 1, ProjectFields[1], m2);
    ProjectTail(m2, arr);
  }

  lemma ProjectInitialized(m: Msg)
    requires m.fields.Keys == {1, 2, 3, 4} && m.fields[2] == ListVal([MessageVal(DecodedSource)])
    ensures Initialized(ExampleRegistry, ProjectFields, m)
  {
    SourceInitialized();
  }

  lemma ProjectFieldNumbers()
    ensures FieldByNumber(ProjectFields, 1) == Some(ProjectFields[0])
    ensures FieldByNumber(ProjectFields, 2) == Some(ProjectFields[1])
    ensures FieldByNumber(ProjectFields, 3) == Some(ProjectFields[2])
    ensures FieldByNumber(ProjectFields, 4) == Some(ProjectFields[3])
    ensures FieldByNumber(ProjectFields, 5) == None
  {
  }

  /** Positions 3 and 4 of the example: the id and the emoji. */
  lemma ProjectTail(m2: Msg, arr: seq<Json>)
    requires arr == [Str("project2"), Arr([SourceItem]), Str("id2"), Str("\U{1F4DA}")]
    ensures PopulateFrom(ExampleRegistry, DefaultOptions, ProjectFields, m2, arr, 2) ==
            Ok(Msg(m2.fields[3 := StringVal("id2")][4 := StringVal("\U{1F4DA}")]))
  {
    var reg, o := ExampleRegistry, DefaultOptions;
    var m3 := Msg(m2.fields[3 := StringVal("id2")]);
    ProjectFieldNumbers();
    StringSet(reg, o, m2, ProjectFields[2], "id2");
    FieldStep(reg, o, ProjectFields, m2, arr, 2, ProjectFields[2], m3);
    StringSet(reg, o, m3, ProjectFields[3], "\U{1F4DA}");
    FieldStep(reg, o, ProjectFields, m3, arr, 3, ProjectFields[3], Msg(m3.fields[4 := StringVal("\U{1F4DA}")]));
  }

  lemma SourceInitialized()
    ensures ValueInitialized(ExampleRegistry, ExampleRegistry[SourceType], ListVal([MessageVal(DecodedSource)]))
  {
    var reg := ExampleRegistry;
    assert ValueInitialized(reg, reg[SourceIdType], MessageVal(Msg(map[1 := StringVal("source1")])));
    assert Initialized(reg, reg[SourceType], DecodedSource);
  }

  /** The source list of the example holds the one decoded source. */
  lemma SourcesSet(msg: Msg)
    requires 2 !in msg.fields
    ensures SetField(ExampleRegistry, DefaultOptions, msg, ProjectFields[1], Arr([SourceItem])) ==
            Ok(Msg(msg.fields[2 := ListVal([MessageVal(DecodedSource)])]))
  {
    var reg, o := ExampleRegistry, DefaultOptions;
    var f, v := ProjectFields[1], MessageVal(DecodedSource);
    assert f.repeated && f.number == 2;
    SourceDecodes();
    AppendStep(reg, o, f, [], [SourceItem], 0, v);
    assert [] + [v] == [v];
    assert AppendFrom(reg, o, f, [v], [SourceItem], 1) == Ok([v]);
    assert ExistingList(msg, 2) == [];
    assert SetRepeated(reg, o, msg, f, Arr([SourceItem])) == Ok(Msg(msg.fields[2 := ListVal([v])]));
  }

  /** One step of setRepeatedField's loop, given what appendToList makes of the item. */
  lemma AppendStep(reg: Registry, o: Options, f: Field, list: seq<Value>, items: seq<Json>, i: nat, v: Value)
    requires i < |items| && ListItem(reg, o, f, items[i]) == Ok(v)
    ensures AppendFrom(reg, o, f, list, items, i) == AppendFrom(reg, o, f, list + [v], items, i + 1)
  {
  }

  /** With unknown positions not discarded, a fifth element fails a four-field project. */
  lemma ExtraPositionRejected()
    ensures Populate(ExampleRegistry, Options(false, false), ProjectFields, Empty,
      [Str("project1"), Arr([]), Str("My Project"), Str("\U{1F4DA}"), Str("extra")])
      == Err(NoFieldForPosition(5))
  {
    var reg, o := ExampleRegistry, Options(false, false);
    var arr := [Str("project1"), Arr([]), Str("My Project"), Str("\U{1F4DA}"), Str("extra")];
    var m1 := Msg(map[1 := StringVal("project1")]);
    ProjectFieldNumbers();
    StringSet(reg, o, Empty, ProjectFields[0], "project1");
    FieldStep(reg, o, ProjectFields, Empty, arr, 0, ProjectFields[0], m1);
    EmptyRepeated(reg, o, m1, ProjectFields[1]);
    FieldStep(reg, o, ProjectFields, m1, arr, 1, ProjectFields[1], m1);
    ExtraPositionTail(m1, arr);
  }

  lemma ExtraPositionTail(m1: Msg, arr: seq<Json>)
    requires arr == [Str("project1"), Arr([]), Str("My Project"), Str("\U{1F4DA}"), Str("extra")]
    ensures PopulateFrom(ExampleRegistry, Options(false, false), ProjectFields, m1, arr, 2) == Err(NoFieldForPosition(5))
  {
    var reg, o := ExampleRegistry, Options(false, false);
    var m3 := Msg(m1.fields[3 := StringVal("My Project")]);
    var m4 := Msg(m3.fields[4 := StringVal("\U{1F4DA}")]);
    ProjectFieldNumbers();
    StringSet(reg, o, m1, ProjectFields[2], "My Project");
    FieldStep(reg, o, ProjectFields, m1, arr, 2, ProjectFields[2], m3);
    StringSet(reg, o, m3, ProjectFields[3], "\U{1F4DA}");
    FieldStep(reg, o, ProjectFields, m3, arr, 3, ProjectFields[3], m4);
  }
}

=== FILE: reqid.dfy ===
/** The request-id counter of the batchexecute client (`_reqid` query parameter). */
module ReqIds {
  import opened GoLib

  /** The id `Next` hands out when the counter stands at `k`. */
  function IdAt(base: int, k: nat): int {
    base + k * 100000
  }

  /**
   * One random four-digit base chosen at construction and a sequence counter;
   * ids are `base + sequence*100000`. The mutex of the source is not modelled:
   * calls are sequential here.
   */
  class ReqIdGenerator {
    const base: int
    var sequence: nat

    ghost predicate Valid() {
      1000 <= base <= 9999
    }

    /** NewReqIDGenerator, with the random base passed in. */
    constructor (base: int)
      requires 1000 <= base <= 9999
      ensures Valid()
      ensures this.base == base && sequence == 0
    {
      this.base := base;
      sequence := 0;
    }

    /** Returns the decimal id for the current counter and advances the counter by one. */
    method Next() returns (id: string)
      requires Valid()
      modifies this
      ensures Valid()
      ensures sequence == old(sequence) + 1
      ensures id == Itoa(IdAt(base, old(sequence)))
      ensures IsInt64(IdAt(base, old(sequence))) ==> Atoi(id) % 100000 == base && Atoi(id) / 100000 == old(sequence)
    {
      var reqid := base + sequence * 100000;
      if IsInt64(reqid) {
        IdDecodes(base, sequence);
      }
      sequence := sequence + 1;
      id := Itoa(reqid);
    }

    /** Restarts the counter; the base is kept. */
    method Reset()
      requires Valid()
      modifies this
      ensures Valid()
      ensures sequence == 0
    {
      sequence := 0;
    }
  }

  /** Successive ids of one generator differ by exactly 100000, so they strictly increase. */
  lemma {:induction false} IdsIncrease(base: int, j: nat, k: nat)
    requires j <= k
    ensures IdAt(base, k) == IdAt(base, j) + (k - j) * 100000
    ensures j < k ==> IdAt(base, j) < IdAt(base, k)
  {
  }

  /**
   * The wire id carries both halves: read back with Atoi, it yields the base
   * as the remainder modulo 100000 and the sequence number as the quotient.
   */
  lemma IdDecodes(base: int, k: nat)
    requires 1000 <= base <= 9999
    requires IsInt64(IdAt(base, k))
    ensures Atoi(Itoa(IdAt(base, k))) % 100000 == base
    ensures Atoi(Itoa(IdAt(base, k))) / 100000 == k
  {
    AtoiItoa(IdAt(base, k));
    QuotientRemainder(k, base);
  }

  lemma QuotientRemainder(q: int, r: int)
    requires 0 <= r < 100000
    ensures (q * 100000 + r) / 100000 == q && (q * 100000 + r) % 100000 == r
  {
    var n := q * 100000 + r;
    var q', r' := n / 100000, n % 100000;
    assert n == q' * 100000 + r' && 0 <= r' < 100000;
    assert (q - q') * 100000 == r' - r;
  }

  /** A fresh generator, two ids, a reset: the id after the reset is the first one again. */
  method ResetRestartsSequence(base: int) returns (first: string, afterReset: string)
    requires 1000 <= base <= 9999
    ensures first == afterReset == Itoa(base)
  {
    var g := new ReqIdGenerator(base);
    first := g.Next();
    var second := g.Next();
    assert second == Itoa(base + 100000);
    g.Reset();
    afterReset := g.Next();
  }
}

=== FILE: request.dfy ===
/**
 * The request side of batchexecute: the per-call tuple, the `f.req` envelope,
 * and the query parameters with their precedence.
 */
module Requests {
  import opened Wrappers
  import opened JsonValue
  import opened GoLib

  /** One RPC call: endpoint id, arguments (`None` is a nil slice), index, per-call URL parameters. */
  datatype Rpc = Rpc(id: string, args: Option<seq<Json>>, index: string, urlParams: map<string, string>)

  /** What `json.Marshal` sees for `Args`: a nil slice encodes as `null`. */
  function ArgsValue(args: Option<seq<Json>>): Json {
    match args
    case None => Null
    case Some(items) => Arr(items)
  }

  /** buildRPCData: `[id, json(args), null, "generic"]`; the call's own Index is not consulted. */
  function RpcData(c: Codec, rpc: Rpc): (r: Json)
    ensures r.Arr? && |r.items| == 4 && r.items[1].Str?
    ensures Lawful(c) ==> c.unmarshal(r.items[1].s) == Some(ArgsValue(rpc.args))
  {
    Arr([Str(rpc.id), Str(c.marshal(ArgsValue(rpc.args))), Null, Str("generic")])
  }

  /** The list of per-call tuples, one per call, in call order. */
  function Envelope(c: Codec, rpcs: seq<Rpc>): (env: seq<Json>)
    ensures |env| == |rpcs|
  {
    seq(|rpcs|, i requires 0 <= i < |rpcs| => RpcData(c, rpcs[i]))
  }

  /** The loop of Execute that appends one tuple per call. */
  method BuildEnvelope(c: Codec, rpcs: seq<Rpc>) returns (env: seq<Json>)
    ensures |env| == |rpcs|
    ensures forall i :: 0 <= i < |rpcs| ==> env[i] == RpcData(c, rpcs[i])
  {
    env := [];
    for i := 0 to |rpcs|
      invariant |env| == i
      invariant forall j :: 0 <= j < i ==> env[j] == RpcData(c, rpcs[j])
    {
      env := env + [RpcData(c, rpcs[i])];
    }
  }

  /** The form body: `f.req` is the envelope wrapped in one more array, `at` the auth token. */
  function FormBody(c: Codec, env: seq<Json>, authToken: string): (form: map<string, string>)
    ensures form.Keys == {"f.req", "at"} && form["at"] == authToken
  {
    map["f.req" := c.marshal(Arr([Arr(env)])), "at" := authToken]
  }

  /**
   * Round trip of the request encoding: with a lawful JSON codec, `f.req`
   * parses back to one array holding one tuple per call, and the second
   * element of each tuple parses back to that call's arguments.
   */
  lemma FReqRoundTrip(c: Codec, rpcs: seq<Rpc>, authToken: string, i: nat)
    requires Lawful(c)
    requires i < |rpcs|
    ensures c.unmarshal(FormBody(c, Envelope(c, rpcs), authToken)["f.req"]) == Some(Arr([Arr(Envelope(c, rpcs))]))
    ensures var t := Envelope(c, rpcs)[i].items;
      |t| == 4 && t[0] == Str(rpcs[i].id) && t[2] == Null && t[3] == Str("generic") &&
      t[1].Str? && c.unmarshal(t[1].s) == Some(ArgsValue(rpcs[i].args))
  {
    var env := Envelope(c, rpcs);
    assert c.unmarshal(c.marshal(Arr([Arr(env)]))) == Some(Arr([Arr(env)]));
    assert c.unmarshal(c.marshal(ArgsValue(rpcs[i].args))) == Some(ArgsValue(rpcs[i].args));
  }

  /**
   * The query parameters Execute sends: `rt` is "c" and `_reqid` the fresh id;
   * every other key takes the first call's URL parameter if it has one, else
   * the client's, else (only `rpcids`) the first call's id.
   */
  ghost predicate QueryFor(q: map<string, string>, clientParams: map<string, string>, first: Rpc, reqid: string) {
    && q.Keys == {"rpcids", "rt", "_reqid"} + clientParams.Keys + first.urlParams.Keys
    && q["rt"] == "c"
    && q["_reqid"] == reqid
    && (forall k :: k in q && k != "rt" && k != "_reqid" ==>
          q[k] == if k in first.urlParams then first.urlParams[k]
                  else if k in clientParams then clientParams[k]
                  else first.id)
  }

  /** Builds the query step by step in the source's order: rpcids, client params, first call's params, rt, _reqid. */
  method BuildQuery(clientParams: map<string, string>, rpcs: seq<Rpc>, reqid: string) returns (q: map<string, string>)
    requires |rpcs| > 0
    ensures QueryFor(q, clientParams, rpcs[0], reqid)
  {
    q := map["rpcids" := rpcs[0].id];
    q := SetAll(q, clientParams);
    q := SetAll(q, rpcs[0].urlParams);
    q := q["rt" := "c"];
    q := q["_reqid" := reqid];
  }

  /** Two precedence facts: a call's own parameter beats the client's, and nobody overrides `rt`. */
  lemma QueryPrecedence(q: map<string, string>, clientParams: map<string, string>, first: Rpc, reqid: string, k: string)
    requires QueryFor(q, clientParams, first, reqid)
    requires k in clientParams && k in first.urlParams && k != "rt" && k != "_reqid"
    ensures q[k] == first.urlParams[k]
    ensures "rt" in clientParams ==> q["rt"] == "c"
  {
  }
}

=== FILE: response.dfy ===
/**
 * The response side of batchexecute: prefix stripping, the chunked framing
 * (length line in base 16, then exactly that many bytes), the single-array
 * variant, the `wrb.fr` row filter and the per-row id, payload and index.
 */
module Responses {
  import opened Wrappers
  import opened JsonValue
  import opened GoLib

  /** The anti-hijacking prefix of every response body. */
  const Prefix: string := ")]}'"

  /** Element 0 of a row that carries a call's response. */
  const Tag: string := "wrb.fr"

  /** A decoded call response; `data` is empty when the row carries no payload. */
  datatype Response = Response(index: int, id: string, data: string, error: string)

  datatype DecodeError =
    | EmptyResponse        // "empty response after trimming prefix"
    | DecodeJson           // "decode response: ..." (single-array variant)
    | InvalidChunkLength   // "invalid chunk length: invalid syntax"
    | ReadChunk            // "read chunk: ..."
    | ParseChunk           // "parse chunk: ..."
    | NoValidResponses     // "no valid responses found"

  // ---------------------------------------------------------------- rows

  /** Every element is an array or `null`: the arrays `[][]interface{}` accepts. */
  predicate RowShaped(items: seq<Json>) {
    forall i :: 0 <= i < |items| ==> items[i].Arr? || items[i].Null?
  }

  /** `rows` holds, element by element, the members of each array of `items`, and no members for a `null`. */
  predicate RowsOf(items: seq<Json>, rows: seq<seq<Json>>) {
    |rows| == |items| && forall i :: 0 <= i < |items| ==> rows[i] == (if items[i].Arr? then items[i].items else [])
  }

  /**
   * `json.Unmarshal` into `[][]interface{}`: `null` is an empty batch, an array
   * is accepted when each element is an array or `null` (a `null` row is empty).
   */
  function AsRows(j: Option<Json>): (r: Option<seq<seq<Json>>>)
    ensures j == Some(Null) ==> r == Some([])
    ensures r.Some? ==> j == Some(Null) || (j.Some? && j.value.Arr? && |r.value| == |j.value.items|)
    ensures j.Some? && j.value.Arr? ==> (r.Some? <==> RowShaped(j.value.items))
    ensures j.Some? && j.value.Arr? && r.Some? ==> RowsOf(j.value.items, r.value)
  {
    match j
    case Some(Null) => Some([])
    case Some(Arr(items)) =>
      if RowShaped(items) then
        Some(seq(|items|, i requires 0 <= i < |items| => if items[i].Arr? then items[i].items else []))
      else None
    case _ => None
  }

  /** A row is a call response when it has at least 7 elements and element 0 is the string "wrb.fr". */
  predicate IsCallRow(row: seq<Json>) {
    |row| >= 7 && row[0] == Str(Tag)
  }

  /** Element 1 when it is a string, else the empty id. */
  function RowId(row: seq<Json>): string
    requires |row| >= 2
  {
    if row[1].Str? then row[1].s else ""
  }

  /** Element 6: "generic" is 0, another string is read by Atoi, anything else is 0. */
  function RowIndex(row: seq<Json>): (r: int)
    requires |row| >= 7
    ensures row[6] == Str("generic") || !row[6].Str? ==> r == 0
    ensures IsInt64(r)
  {
    if row[6] == Str("generic") then 0
    else if row[6].Str? then Atoi(row[6].s)
    else 0
  }

  /** A numeric index written by Itoa is read back exactly. */
  lemma RowIndexDecimal(row: seq<Json>, n: int)
    requires |row| >= 7 && IsInt64(n) && row[6] == Str(Itoa(n))
    ensures RowIndex(row) == n
  {
    AtoiItoa(n);
    ItoaIsNotGeneric(n);
  }

  /** No int64 is written as the word "generic": Itoa starts with a sign or a decimal digit. */
  lemma ItoaIsNotGeneric(n: int)
    ensures Itoa(n) != "generic"
  {
    if n < 0 {
      assert Itoa(n)[0] == '-';
    } else {
      FirstDigit(n, 10);
      assert Itoa(n)[0] != 'g';
    }
  }

  /** The single-array variant's row reading: the payload string is taken raw. */
  function PlainRow(row: seq<Json>): (r: Option<Response>)
    ensures r.Some? <==> IsCallRow(row)
  {
    if !IsCallRow(row) then None
    else Some(Response(RowIndex(row), RowId(row), if row[2].Str? then row[2].s else "", ""))
  }

  /**
   * The second attempt on a payload string: decode it as a JSON string, then
   * parse that string's contents. A JSON `null` leaves the target string empty.
   */
  function UnescapeThenParse(c: Codec, text: string): Option<string> {
    var inner :=
      match c.unmarshal(text)
      case Some(Str(u)) => Some(u)
      case Some(Null) => Some("")
      case _ => None;
    if inner.None? then None
    else
      match c.unmarshal(inner.value)
      case Some(d) => Some(c.marshal(d))
      case None => None
  }

  /**
   * The chunked variant's payload (element 2): empty for a non-string; for a
   * string, parsed and re-encoded, with the unescape attempt when the direct
   * parse fails; `None` means the row is skipped.
   */
  function ChunkPayload(c: Codec, v: Json): (r: Option<string>)
    ensures r.None? <==> v.Str? && c.unmarshal(v.s).None?
    ensures v.Str? && c.unmarshal(v.s).Some? ==> r == Some(c.marshal(c.unmarshal(v.s).value))
    ensures !v.Str? ==> r == Some("")
  {
    if !v.Str? then Some("")
    else
      match c.unmarshal(v.s)
      case Some(d) => Some(c.marshal(d))
      case None => UnescapeThenParse(c, v.s)
  }

  /**
   * The unescape attempt can never rescue a payload: it decodes the same text
   * again, and a text that does not parse as a value does not parse as a
   * string either.
   */
  lemma UnescapeNeverRescues(c: Codec, text: string)
    requires c.unmarshal(text).None?
    ensures UnescapeThenParse(c, text).None?
  {
  }

  /** The chunked variant's row reading. */
  function ChunkRow(c: Codec, row: seq<Json>): (r: Option<Response>)
    ensures r.Some? <==> IsCallRow(row) && ChunkPayload(c, row[2]).Some?
  {
    if !IsCallRow(row) then None
    else
      match ChunkPayload(c, row[2])
      case None => None
      case Some(d) => Some(Response(RowIndex(row), RowId(row), d, ""))
  }

  /** Which of the two variants reads the rows. */
  datatype Reader = Plain | Chunked(c: Codec)

  function ReadRow(read: Reader, row: seq<Json>): (r: Option<Response>)
    ensures r.Some? ==> IsCallRow(row)
  {
    match read
    case Plain => PlainRow(row)
    case Chunked(c) => ChunkRow(c, row)
  }

  /** The responses of the accepted rows, in row order. */
  function Collect(rows: seq<seq<Json>>, read: Reader): (r: seq<Response>)
    ensures |r| <= |rows|
  {
    if rows == [] then []
    else
      var last := ReadRow(read, rows[|rows| - 1]);
      Collect(rows[..|rows| - 1], read) + (if last.Some? then [last.value] else [])
  }

  /** Collecting distributes over concatenation: accepted rows keep their input order. */
  lemma {:induction false} CollectAppend(a: seq<seq<Json>>, b: seq<seq<Json>>, read: Reader)
    ensures Collect(a + b, read) == Collect(a, read) + Collect(b, read)
    decreases |b|
  {
    if b == [] {
      assert a + b == a;
    } else {
      var b' := b[..|b| - 1];
      assert (a + b)[..|a + b| - 1] == a + b';
      assert (a + b)[|a + b| - 1] == b[|b| - 1];
      CollectAppend(a, b', read);
    }
  }

  /** Every collected response comes from some row the reader accepts. */
  lemma {:induction false} CollectSound(rows: seq<seq<Json>>, read: Reader, k: nat)
    requires k < |Collect(rows, read)|
    ensures exists i :: 0 <= i < |rows| && ReadRow(read, rows[i]) == Some(Collect(rows, read)[k])
  {
    var front := rows[..|rows| - 1];
    var last := ReadRow(read, rows[|rows| - 1]);
    if k < |Collect(front, read)| {
      CollectSound(front, read, k);
      var i :| 0 <= i < |front| && ReadRow(read, front[i]) == Some(Collect(front, read)[k]);
      assert rows[i] == front[i];
    } else {
      assert ReadRow(read, rows[|rows| - 1]) == Some(Collect(rows, read)[k]);
    }
  }

  // ---------------------------------------------------------------- single-array variant

  /** decodeResponse: strip the prefix, decode the first JSON value as rows, keep the call rows. */
  function DecodePlain(c: Codec, body: string): (r: Result<seq<Response>, DecodeError>)
    ensures TrimPrefix(body, Prefix) == "" ==> r == Err(EmptyResponse)
    ensures r.Ok? ==> r.value != []
    ensures var raw := TrimPrefix(body, Prefix);
      raw != "" && AsRows(c.decodeFirst(raw)).None? ==> r == Err(DecodeJson)
    ensures var raw := TrimPrefix(body, Prefix);
      raw != "" && AsRows(c.decodeFirst(raw)).Some? && Collect(AsRows(c.decodeFirst(raw)).value, Plain) == [] ==>
      r == Err(NoValidResponses)
    ensures var raw := TrimPrefix(body, Prefix);
      r.Ok? ==> AsRows(c.decodeFirst(raw)).Some? && r.value == Collect(AsRows(c.decodeFirst(raw)).value, Plain)
  {
    var raw := TrimPrefix(body, Prefix);
    if raw == "" then Err(EmptyResponse)
    else
      match AsRows(c.decodeFirst(raw))
      case None => Err(DecodeJson)
      case Some(rows) =>
        var rs := Collect(rows, Plain);
        if rs == [] then Err(NoValidResponses) else Ok(rs)
  }

  /**
   * With a lawful codec, a body of the prefix and the rows' text decodes to
   * the rows' call responses, or to NoValidResponses when none is kept.
   */
  lemma PlainBodyDecodes(c: Codec, rows: seq<seq<Json>>)
    requires Lawful(c)
    ensures var rs := Collect(rows, Plain);
      DecodePlain(c, Prefix + c.marshal(RowsJson(rows))) == if rs == [] then Err(NoValidResponses) else Ok(rs)
  {
    var text := c.marshal(RowsJson(rows));
    assert c.decodeFirst(text) == Some(RowsJson(rows));
    assert TrimPrefix(Prefix + text, Prefix) == text;
  }

  /** The loop of decodeResponse over the decoded rows. */
  method DecodeResponse(c: Codec, body: string) returns (r: Result<seq<Response>, DecodeError>)
    ensures r == DecodePlain(c, body)
  {
    var raw := TrimPrefix(body, Prefix);
    if raw == "" {
      return Err(EmptyResponse);
    }
    var rows := AsRows(c.decodeFirst(raw));
    if rows.None? {
      return Err(DecodeJson);
    }
    var result := AppendRows([], rows.value, Plain);
    assert result == Collect(rows.value, Plain);
    if result == [] {
      return Err(NoValidResponses);
    }
    return Ok(result);
  }

  /** Appends the response of every accepted row to `acc`, row by row. */
  method AppendRows(acc: seq<Response>, rows: seq<seq<Json>>, read: Reader)
    returns (result: seq<Response>)
    ensures result == acc + Collect(rows, read)
  {
    result := acc;
    for i := 0 to |rows|
      invariant result == acc + Collect(rows[..i], read)
    {
      assert rows[..i + 1][..i] == rows[..i];
      var resp := ReadRow(read, rows[i]);
      if resp.Some? {
        result := result + [resp.value];
      }
    }
    assert rows[..|rows|] == rows;
  }

  // ---------------------------------------------------------------- chunked variant

  /** A text with one line break, at its end. */
  predicate LineText(t: string) {
    t != [] && t[|t| - 1] == '\n' && forall k :: 0 <= k < |t| - 1 ==> t[k] != '\n'
  }

  /** A text without a line break: what is left when ReadString('\n') reaches the end. */
  predicate NoNewline(s: string) {
    forall k :: 0 <= k < |s| ==> s[k] != '\n'
  }

  /** What bufio.Reader.ReadString('\n') yields: a line with its newline, or end of input. */
  datatype Line = Line(text: string, rest: string) | Eof

  function ReadLine(s: string): (r: Line)
    ensures r.Line? ==> s == r.text + r.rest && LineText(r.text)
    ensures r.Eof? <==> NoNewline(s)
  {
    if s == [] then Eof
    else if s[0] == '\n' then Line("\n", s[1..])
    else
      match ReadLine(s[1..])
      case Line(text, rest) => Line([s[0]] + text, rest)
      case Eof => Eof
  }

  /**
   * The chunk length as the source reads it: strconv.ParseInt(s, 16, 64).
   * A leading minus sign is accepted, so the length can be negative.
   */
  function ChunkLengthAsWritten(lengthStr: string): (r: Result<int, DecodeError>)
    ensures r.Ok? <==> ParseInt(lengthStr, 16).err.None?
    ensures r.Ok? ==> r.value == ParseInt(lengthStr, 16).value && IsInt64(r.value)
    ensures r.Err? ==> r.error == InvalidChunkLength
    ensures ChunkLength(lengthStr).Ok? <==> r.Ok? && r.value >= 0
    ensures ChunkLength(lengthStr).Ok? ==> r == Ok(ChunkLength(lengthStr).value)
  {
    var p := ParseInt(lengthStr, 16);
    if p.err.Some? then Err(InvalidChunkLength) else Ok(p.value)
  }

  /** "-1" is accepted as a length of -1, which `make([]byte, -1)` turns into a run-time panic. */
  lemma NegativeChunkLength()
    ensures ChunkLengthAsWritten("-1") == Ok(-1)
  {
    assert "-1"[1..] == "1";
    assert ScanDigits("1", 16) == Digits(1) by {
      assert "1"[..0] == "";
    }
  }

  /**
   * The Go runtime's allocation limit on a 64-bit platform, 2^48 bytes:
   * `make([]byte, n)` panics for a negative `n` and for one above this limit.
   */
  const MaxAllocLen: int := 0x1_0000_0000_0000

  predicate MakePanics(n: int) {
    n < 0 || n > MaxAllocLen
  }

  /** Every int64 length above the allocation limit is accepted, and `make([]byte, n)` then panics. */
  lemma HugeChunkLength(n: int)
    requires MaxAllocLen < n <= MaxInt64
    ensures ChunkLengthAsWritten(FormatInt(n, 16)) == Ok(n) && MakePanics(n)
  {
    ParseFormatInt(n, 16);
  }

  /** The chunk length, corrected: a base-16 int64 that is not negative. */
  function ChunkLength(lengthStr: string): (r: Result<nat, DecodeError>)
    ensures r.Ok? <==> ParseInt(lengthStr, 16).err.None? && ParseInt(lengthStr, 16).value >= 0
    ensures r.Ok? ==> r.value == ParseInt(lengthStr, 16).value
    ensures r.Err? ==> r.error == InvalidChunkLength
  {
    var p := ParseInt(lengthStr, 16);
    if p.err.Some? || p.value < 0 then Err(InvalidChunkLength) else Ok(p.value)
  }

  /** The length line is read in base 16: "105" announces 261 bytes. */
  lemma LengthIsHexadecimal()
    ensures ChunkLength("105") == Ok(0x105)
  {
    assert "105"[..2] == "10" && "10"[..1] == "1" && "1"[..0] == "";
  }

  /** A chunk that `json.Unmarshal` accepts into a Go string. */
  predicate QuotedText(j: Option<Json>) {
    j.Some? && j.value.Str?
  }

  /**
   * One chunk's rows: parsed directly as rows, or else as a JSON string whose
   * contents are the rows.
   */
  function ChunkRows(c: Codec, chunk: string): (r: Option<seq<seq<Json>>>)
    ensures AsRows(c.unmarshal(chunk)).Some? ==> r == AsRows(c.unmarshal(chunk))
    ensures AsRows(c.unmarshal(chunk)).None? && QuotedText(c.unmarshal(chunk)) ==>
      r == AsRows(c.unmarshal(c.unmarshal(chunk).value.s))
    ensures r.None? <==>
      && AsRows(c.unmarshal(chunk)).None?
      && (QuotedText(c.unmarshal(chunk)) ==> AsRows(c.unmarshal(c.unmarshal(chunk).value.s)).None?)
  {
    match AsRows(c.unmarshal(chunk))
    case Some(rows) => Some(rows)
    case None =>
      match c.unmarshal(chunk)
      case Some(Str(u)) => AsRows(c.unmarshal(u))
      case _ => None
  }

  /** The JSON array a batch of rows is written as. */
  function RowsJson(rows: seq<seq<Json>>): (j: Json)
    ensures j.Arr? && |j.items| == |rows|
    ensures AsRows(Some(j)) == Some(rows)
  {
    var j := Arr(seq(|rows|, i requires 0 <= i < |rows| => Arr(rows[i])));
    assert AsRows(Some(j)).value == rows;
    j
  }

  /**
   * With a lawful codec, a chunk holding the rows' text is read as those rows,
   * and so is a chunk holding that text quoted as one JSON string.
   */
  lemma QuotedChunk(c: Codec, rows: seq<seq<Json>>)
    requires Lawful(c)
    ensures ChunkRows(c, c.marshal(RowsJson(rows))) == Some(rows)
    ensures ChunkRows(c, c.marshal(Str(c.marshal(RowsJson(rows))))) == Some(rows)
  {
    var j := RowsJson(rows);
    var text := c.marshal(j);
    assert c.unmarshal(text) == Some(j);
    assert c.unmarshal(c.marshal(Str(text))) == Some(Str(text));
  }

  /** One turn of decodeChunkedResponse's loop on the unread input. */
  datatype Step =
    | Done                                        // no further complete line
    | Skip(rest: string)                          // a blank length line
    | Chunk(rows: seq<seq<Json>>, rest: string)   // one chunk read and parsed
    | Fail(error: DecodeError)

  /** The errors one turn of the chunked loop can end with. */
  predicate TurnError(e: DecodeError) {
    e == InvalidChunkLength || e == ReadChunk || e == ParseChunk
  }

  function NextChunk(c: Codec, s: string): (r: Step)
    ensures r.Skip? || r.Chunk? ==> |r.rest| < |s|
    ensures r.Done? <==> NoNewline(s)
    ensures r.Fail? ==> TurnError(r.error)
  {
    match ReadLine(s)
    case Eof => Done
    case Line(text, rest) => ChunkAfter(c, TrimSpace(text), rest)
  }

  /** The rest of a turn once the length line `lengthStr` is read and `rest` is unread. */
  function ChunkAfter(c: Codec, lengthStr: string, rest: string): (r: Step)
    ensures r.Skip? || r.Chunk? ==> |r.rest| <= |rest|
    ensures !r.Done? && (r.Fail? ==> TurnError(r.error))
    ensures lengthStr == "" ==> r == Skip(rest)
    ensures lengthStr != "" && ChunkLength(lengthStr).Err? ==> r == Fail(InvalidChunkLength)
    ensures lengthStr != "" && ChunkLength(lengthStr).Ok? && ChunkLength(lengthStr).value > |rest| ==> r == Fail(ReadChunk)
    ensures lengthStr != "" && ChunkLength(lengthStr).Ok? && ChunkLength(lengthStr).value <= |rest| ==>
      var n := ChunkLength(lengthStr).value;
      && (ChunkRows(c, rest[..n]).None? ==> r == Fail(ParseChunk))
      && (ChunkRows(c, rest[..n]).Some? ==> r == Chunk(ChunkRows(c, rest[..n]).value, rest[n..]))
  {
    if lengthStr == "" then Skip(rest)
    else
      match ChunkLength(lengthStr)
      case Err(e) => Fail(e)
      case Ok(n) =>
        if n > |rest| then Fail(ReadChunk)
        else
          match ChunkRows(c, rest[..n])
          case None => Fail(ParseChunk)
          case Some(rows) => Chunk(rows, rest[n..])
  }

  /**
   * Corrected, a length line announcing more bytes than remain, however large,
   * ends the turn with ReadChunk, as io.ReadFull reports for a short read.
   */
  lemma HugeLengthReadFails(c: Codec, n: int, rest: string)
    requires MaxAllocLen < n <= MaxInt64 && |rest| <= MaxAllocLen
    ensures ChunkAfter(c, FormatInt(n, 16), rest) == Fail(ReadChunk)
  {
    ParseFormatInt(n, 16);
  }

  /**
   * The loop of decodeChunkedResponse on the unread input `s`, with the
   * responses gathered so far in `acc`.
   */
  function ChunksOf(c: Codec, s: string, acc: seq<Response>): (r: Result<seq<Response>, DecodeError>)
    ensures NoNewline(s) ==> r == Ok(acc)
    ensures r.Ok? ==> acc <= r.value
    ensures r.Err? ==> TurnError(r.error)
    decreases |s|
  {
    match NextChunk(c, s)
    case Done => Ok(acc)
    case Fail(e) => Err(e)
    case Skip(rest) => ChunksOf(c, rest, acc)
    case Chunk(rows, rest) => ChunksOf(c, rest, acc + Collect(rows, Chunked(c)))
  }

  /** decodeChunkedResponse */
  function DecodeChunked(c: Codec, body: string): (r: Result<seq<Response>, DecodeError>)
    ensures TrimSpace(TrimPrefix(body, Prefix)) == "" ==> r == Err(EmptyResponse)
    ensures r.Ok? ==> r.value != []
    ensures r.Err? ==> r.error == EmptyResponse || r.error == NoValidResponses || TurnError(r.error)
    ensures var raw := TrimSpace(TrimPrefix(body, Prefix));
      raw != "" && NoNewline(raw) ==> r == Err(NoValidResponses)
    ensures var raw := TrimSpace(TrimPrefix(body, Prefix));
      raw != "" && NextChunk(c, raw).Fail? ==> r == Err(NextChunk(c, raw).error)
  {
    var raw := TrimSpace(TrimPrefix(body, Prefix));
    if raw == "" then Err(EmptyResponse)
    else
      match ChunksOf(c, raw, [])
      case Err(e) => Err(e)
      case Ok(rs) => if rs == [] then Err(NoValidResponses) else Ok(rs)
  }

  /** The source's loop: a buffered reader over the trimmed body and a growing list of responses. */
  method DecodeChunkedResponse(c: Codec, body: string) returns (r: Result<seq<Response>, DecodeError>)
    ensures r == DecodeChunked(c, body)
  {
    var raw := TrimSpace(TrimPrefix(body, Prefix));
    if raw == "" {
      return Err(EmptyResponse);
    }
    // `unread` is what the buffered reader over `raw` has not yet delivered.
    var responses: seq<Response> := [];
    var unread := raw;
    while true
      invariant ChunksOf(c, raw, []) == ChunksOf(c, unread, responses)
      decreases |unread|
    {
      var step := ReadNextChunk(c, unread);
      match step
      case Done =>
        break;
      case Fail(e) =>
        return Err(e);
      case Skip(rest) =>
        ChunksOfSkip(c, unread, responses, rest);
        unread := rest;
      case Chunk(rows, rest) =>
        ChunksOfChunk(c, unread, responses, rows, rest);
        unread := rest;
        responses := AppendRows(responses, rows, Chunked(c));
    }
    if responses == [] {
      return Err(NoValidResponses);
    }
    return Ok(responses);
  }

  /** One turn of the loop: read the length line, then the chunk it announces, then parse it. */
  method ReadNextChunk(c: Codec, unread: string) returns (step: Step)
    ensures step == NextChunk(c, unread)
  {
    var line := ReadLine(unread);
    if line.Eof? {
      return Done;
    }
    var rest := line.rest;
    var lengthStr := TrimSpace(line.text);
    if lengthStr == "" {
      return Skip(rest);
    }
    var length := ChunkLength(lengthStr);
    if length.Err? {
      return Fail(length.error);
    }
    var n := length.value;
    if n > |rest| {
      return Fail(ReadChunk);
    }
    var chunk := rest[..n];
    var rows := ChunkRows(c, chunk);
    if rows.None? {
      return Fail(ParseChunk);
    }
    return Chunk(rows.value, rest[n..]);
  }

  // ---------------------------------------------------------------- the framing, end to end

  /** The length line a server writes before a chunk: its size in base 16. */
  function Header(chunk: string): string {
    FormatUint(|chunk|, 16) + "\n"
  }

  /** Chunks, each after its length line, separated by line breaks. */
  function Joined(chunks: seq<string>): string {
    if chunks == [] then ""
    else if |chunks| == 1 then Header(chunks[0]) + chunks[0]
    else Header(chunks[0]) + chunks[0] + "\n" + Joined(chunks[1..])
  }

  /** Every chunk has an int64 length and parses as rows. */
  predicate Framable(c: Codec, chunks: seq<string>) {
    forall i :: 0 <= i < |chunks| ==> |chunks[i]| <= MaxInt64 && ChunkRows(c, chunks[i]).Some?
  }

  /** What the chunks carry: the call responses of every chunk, chunk after chunk. */
  function ChunkResponses(c: Codec, chunks: seq<string>): seq<Response>
    requires Framable(c, chunks)
  {
    if chunks == [] then []
    else Collect(ChunkRows(c, chunks[0]).value, Chunked(c)) + ChunkResponses(c, chunks[1..])
  }

  /** A line without a break, followed by one, is read whole. */
  lemma {:induction false} ReadLineOf(text: string, t: string)
    requires forall k :: 0 <= k < |text| ==> text[k] != '\n'
    ensures ReadLine(text + "\n" + t) == Line(text + "\n", t)
  {
    if text != [] {
      ReadLineOf(text[1..], t);
      assert (text + "\n" + t)[1..] == text[1..] + "\n" + t;
      assert [text[0]] + (text[1..] + "\n") == text + "\n";
    } else {
      assert (text + "\n" + t)[1..] == t;
    }
  }

  /** A line of digits trims to its digits. */
  lemma DigitLineTrims(hex: string)
    requires AllDigits(hex)
    ensures TrimSpace(hex + "\n") == hex
  {
    var h := hex + "\n";
    assert DigitValue(hex[0]).Some?;
    assert h[0] == hex[0] && !IsSpace(h[0]);
    assert TrimLeftSpace(h) == h;
    assert h[..|h| - 1] == hex;
    assert DigitValue(hex[|hex| - 1]).Some?;
    assert TrimRightSpace(h) == TrimRightSpace(hex);
  }

  /** A framed chunk is one turn of the loop: read and parsed, leaving what follows it. */
  lemma ChunkTurn(c: Codec, chunk: string, t: string)
    requires |chunk| <= MaxInt64 && ChunkRows(c, chunk).Some?
    ensures NextChunk(c, Header(chunk) + chunk + t) == Chunk(ChunkRows(c, chunk).value, t)
  {
    var hex := FormatUint(|chunk|, 16);
    FormatUintDigits(|chunk|, 16);
    LengthReads(chunk);
    LengthLineTurn(c, hex, chunk, t);
  }

  /** A line of digits announcing the chunk's length, then the chunk: one turn reads the chunk. */
  lemma LengthLineTurn(c: Codec, hex: string, chunk: string, t: string)
    requires AllDigits(hex) && ChunkLength(hex) == Ok(|chunk|) && ChunkRows(c, chunk).Some?
    ensures NextChunk(c, hex + "\n" + chunk + t) == Chunk(ChunkRows(c, chunk).value, t)
  {
    var s := hex + "\n" + chunk + t;
    assert s == hex + "\n" + (chunk + t);
    ReadLineOf(hex, chunk + t);
    DigitLineTrims(hex);
    NextChunkOf(c, s, hex + "\n", chunk + t);
    assert (chunk + t)[..|chunk|] == chunk && (chunk + t)[|chunk|..] == t;
  }

  /** A turn whose length line is `text` continues with the bytes after it. */
  lemma NextChunkOf(c: Codec, s: string, text: string, rest: string)
    requires ReadLine(s) == Line(text, rest)
    ensures NextChunk(c, s) == ChunkAfter(c, TrimSpace(text), rest)
  {
  }

  /** The length a server writes reads back as the chunk's size. */
  lemma LengthReads(chunk: string)
    requires |chunk| <= MaxInt64
    ensures ChunkLength(FormatUint(|chunk|, 16)) == Ok(|chunk|)
  {
    ParseFormatInt(|chunk|, 16);
  }

  /** The line break after a chunk reads as a blank length line and is skipped. */
  lemma LineBreakTurn(c: Codec, t: string)
    ensures NextChunk(c, "\n" + t) == Skip(t)
  {
    ReadLineOf("", t);
    assert "" + "\n" + t == "\n" + t;
    assert TrimSpace("\n") == "" by {
      assert TrimLeftSpace("\n"[1..]) == "";
    }
  }

  /** The responses of the chunks after the first follow the first chunk's. */
  lemma ChunkResponsesCons(c: Codec, chunks: seq<string>)
    requires chunks != [] && Framable(c, chunks)
    ensures Framable(c, chunks[1..])
    ensures ChunkResponses(c, chunks)
         == Collect(ChunkRows(c, chunks[0]).value, Chunked(c)) + ChunkResponses(c, chunks[1..])
  {
    var rest := chunks[1..];
    forall i | 0 <= i < |rest|
      ensures |rest[i]| <= MaxInt64 && ChunkRows(c, rest[i]).Some?
    {
      assert rest[i] == chunks[i + 1];
    }
  }

  /** The last chunk leaves nothing to read. */
  lemma LastChunk(c: Codec, chunk: string, acc: seq<Response>)
    requires |chunk| <= MaxInt64 && ChunkRows(c, chunk).Some?
    ensures ChunksOf(c, Header(chunk) + chunk, acc) == Ok(acc + Collect(ChunkRows(c, chunk).value, Chunked(c)))
  {
    ChunkTurn(c, chunk, "");
    assert Header(chunk) + chunk + "" == Header(chunk) + chunk;
    assert NextChunk(c, "") == Done;
  }

  /** A chunk that is followed by more leaves a line break and the rest to read. */
  lemma InnerChunk(c: Codec, chunk: string, tail: string, acc: seq<Response>)
    requires |chunk| <= MaxInt64 && ChunkRows(c, chunk).Some?
    ensures ChunksOf(c, Header(chunk) + chunk + "\n" + tail, acc)
         == ChunksOf(c, tail, acc + Collect(ChunkRows(c, chunk).value, Chunked(c)))
  {
    var rows := ChunkRows(c, chunk).value;
    var s := Header(chunk) + chunk + "\n" + tail;
    ChunkTurn(c, chunk, "\n" + tail);
    ConcatAssoc(Header(chunk) + chunk, "\n", tail);
    ChunksOfChunk(c, s, acc, rows, "\n" + tail);
    LineBreakTurn(c, tail);
    ChunksOfSkip(c, "\n" + tail, acc + Collect(rows, Chunked(c)), tail);
  }

  lemma ConcatAssoc(a: string, b: string, d: string)
    ensures a + b + d == a + (b + d)
  {
  }

  /** A turn that reads a chunk adds its responses and goes on after it. */
  lemma ChunksOfChunk(c: Codec, s: string, acc: seq<Response>, rows: seq<seq<Json>>, rest: string)
    requires NextChunk(c, s) == Chunk(rows, rest)
    ensures ChunksOf(c, s, acc) == ChunksOf(c, rest, acc + Collect(rows, Chunked(c)))
  {
  }

  /** A turn that skips a blank line goes on after it. */
  lemma ChunksOfSkip(c: Codec, s: string, acc: seq<Response>, rest: string)
    requires NextChunk(c, s) == Skip(rest)
    ensures ChunksOf(c, s, acc) == ChunksOf(c, rest, acc)
  {
  }

  /** What ChunksOf ends with from `acc`, given what it ends with from nothing gathered. */
  predicate GatheredBefore(from: Result<seq<Response>, DecodeError>, fromEmpty: Result<seq<Response>, DecodeError>, acc: seq<Response>) {
    match fromEmpty
    case Err(e) => from == Err(e)
    case Ok(x) => from == Ok(acc + x)
  }

  /**
   * A failing turn ends the loop with its error whatever was gathered before;
   * otherwise the responses read from `s` follow those gathered, in order.
   */
  lemma {:induction false} ChunksOfFrom(c: Codec, s: string, acc: seq<Response>)
    ensures GatheredBefore(ChunksOf(c, s, acc), ChunksOf(c, s, []), acc)
    decreases |s|
  {
    var step := NextChunk(c, s);
    if step.Skip? {
      ChunksOfSkip(c, s, acc, step.rest);
      ChunksOfSkip(c, s, [], step.rest);
      ChunksOfFrom(c, step.rest, acc);
      ChunksOfFrom(c, step.rest, []);
    } else if step.Chunk? {
      var x := Collect(step.rows, Chunked(c));
      ChunksOfChunk(c, s, acc, step.rows, step.rest);
      ChunksOfChunk(c, s, [], step.rows, step.rest);
      ChunksOfFrom(c, step.rest, acc + x);
      ChunksOfFrom(c, step.rest, [] + x);
      GatheredShift(ChunksOf(c, step.rest, acc + x), ChunksOf(c, step.rest, [] + x), ChunksOf(c, step.rest, []), acc, x);
    } else {
      assert acc + [] == acc;
    }
  }

  /** Gathering `acc + x` before a run is gathering `acc` before the run that starts from `x`. */
  lemma GatheredShift(r1: Result<seq<Response>, DecodeError>, r2: Result<seq<Response>, DecodeError>,
                      r0: Result<seq<Response>, DecodeError>, acc: seq<Response>, x: seq<Response>)
    requires GatheredBefore(r1, r0, acc + x) && GatheredBefore(r2, r0, [] + x)
    ensures GatheredBefore(r1, r2, acc)
  {
    assert [] + x == x;
    if r0.Ok? {
      AppendAssoc(acc, x, r0.value);
    }
  }

  lemma AppendAssoc(a: seq<Response>, b: seq<Response>, d: seq<Response>)
    ensures a + b + d == a + (b + d) && a + [] == a
  {
  }

  /** The loop reads the joined chunks one after another. */
  lemma {:induction false} ChunksOfJoined(c: Codec, chunks: seq<string>, acc: seq<Response>)
    requires Framable(c, chunks)
    ensures ChunksOf(c, Joined(chunks), acc) == Ok(acc + ChunkResponses(c, chunks))
    decreases |chunks|
  {
    if chunks == [] {
      assert NextChunk(c, "") == Done;
      AppendAssoc(acc, [], []);
      assert ChunksOf(c, Joined(chunks), acc) == Ok(acc);
    } else {
      var ch := chunks[0];
      var rest := chunks[1..];
      assert |ch| <= MaxInt64 && ChunkRows(c, ch).Some?;
      var first := Collect(ChunkRows(c, ch).value, Chunked(c));
      ChunkResponsesCons(c, chunks);
      var all := ChunkResponses(c, chunks);
      var later := ChunkResponses(c, rest);
      assert all == first + later;
      if rest == [] {
        assert Joined(chunks) == Header(ch) + ch;
        LastChunk(c, ch, acc);
        assert later == [];
        AppendAssoc(first, [], []);
        calc {
          ChunksOf(c, Joined(chunks), acc);
          ChunksOf(c, Header(ch) + ch, acc);
          Ok(acc + first);
          Ok(acc + all);
        }
      } else {
        var tail := Joined(rest);
        var framed := Header(ch) + ch + "\n" + tail;
        assert Joined(chunks) == framed;
        InnerChunk(c, ch, tail, acc);
        ChunksOfJoined(c, rest, acc + first);
        AppendAssoc(acc, first, later);
        calc {
          ChunksOf(c, Joined(chunks), acc);
          ChunksOf(c, framed, acc);
          ChunksOf(c, tail, acc + first);
          Ok(acc + first + later);
          Ok(acc + all);
        }
      }
    }
  }

  /**
   * Decoding inverts the framing: a body made of the prefix, a line break and
   * the length-framed chunks yields exactly the call responses the chunks
   * carry, in order (or "no valid responses" when they carry none).
   */
  lemma FramedBodyDecodes(c: Codec, chunks: seq<string>)
    requires chunks != [] && Framable(c, chunks)
    requires var last := chunks[|chunks| - 1]; last != [] && !IsSpace(last[|last| - 1])
    ensures var rs := ChunkResponses(c, chunks);
      DecodeChunked(c, Prefix + "\n" + Joined(chunks) + "\n") == if rs == [] then Err(NoValidResponses) else Ok(rs)
  {
    FramedText(chunks);
    ChunksOfJoined(c, chunks, []);
    assert [] + ChunkResponses(c, chunks) == ChunkResponses(c, chunks);
  }

  /** Prefix and surrounding line breaks removed, the loop sees exactly the joined chunks. */
  lemma FramedText(chunks: seq<string>)
    requires chunks != []
    requires var last := chunks[|chunks| - 1]; last != [] && !IsSpace(last[|last| - 1])
    ensures TrimSpace(TrimPrefix(Prefix + "\n" + Joined(chunks) + "\n", Prefix)) == Joined(chunks)
  {
    var j := Joined(chunks);
    var last := chunks[|chunks| - 1];
    JoinedLast(chunks, last[|last| - 1]);
    FormatUintDigits(|chunks[0]|, 16);
    JoinedStart(chunks, FormatUint(|chunks[0]|, 16));
    assert !IsSpace(j[0]);
    assert Prefix + "\n" + j + "\n" == Prefix + ("\n" + j + "\n");
    assert TrimPrefix(Prefix + "\n" + j + "\n", Prefix) == "\n" + j + "\n";
    TrimSpaceNewlines(j);
  }

  /** `s` is not empty and its last byte is `x`. */
  predicate EndsIn(s: string, x: char) {
    s != [] && s[|s| - 1] == x
  }

  lemma ConcatEnds(a: string, b: string, x: char)
    requires EndsIn(b, x)
    ensures EndsIn(a + b, x)
  {
  }

  /** The joined text ends with the last chunk's last byte. */
  lemma {:induction false} JoinedLast(chunks: seq<string>, x: char)
    requires chunks != [] && EndsIn(chunks[|chunks| - 1], x)
    ensures EndsIn(Joined(chunks), x)
    decreases |chunks|
  {
    if |chunks| == 1 {
      ConcatEnds(Header(chunks[0]), chunks[0], x);
    } else {
      var rest := chunks[1..];
      assert rest[|rest| - 1] == chunks[|chunks| - 1];
      JoinedLast(rest, x);
      ConcatEnds(Header(chunks[0]) + chunks[0] + "\n", Joined(rest), x);
    }
  }

  /** The joined text starts with the first digit of the first length line. */
  lemma JoinedStart(chunks: seq<string>, hex: string)
    requires chunks != [] && hex == FormatUint(|chunks[0]|, 16) && AllDigits(hex)
    ensures Joined(chunks) != [] && Joined(chunks)[0] == hex[0]
  {
  }
}

=== FILE: rpc.dfy ===
/**
 * The NotebookLM RPC layer over batchexecute: per-call URL parameters with the
 * `source-path` of the notebook, the call handed on with index "generic", and
 * the payload of the first response returned.
 */
module NotebookRpc {
  import opened Wrappers
  import opened JsonValue
  import opened GoLib
  import opened ReqIds
  import opened Requests
  import opened Responses
  import opened BatchExecute

  /** Endpoint ids used by this model. */
  const ListRecentlyViewedProjects: string := "wXbhsf"
  const CreateAudioOverviewId: string := "AHyHrd"
  const GetAudioOverviewId: string := "VUsiyb"
  const ShareAudioId: string := "RGP97b"

  /** A NotebookLM call: endpoint id, arguments (`None` is nil), optional notebook id ("" when absent). */
  datatype Call = Call(id: string, args: Option<seq<Json>>, notebookId: string)

  datatype RpcError =
    | ExecuteRpc(cause: ExecError)   // "execute rpc: ..."
    | NotImplemented                 // "not implemented"

  /** The configuration `rpc.New` builds around the credentials. */
  function NotebookConfig(authToken: string, cookies: string): (config: Config)
    ensures config.host == "notebooklm.google.com" && config.app == "LabsTailwindUi"
    ensures config.authToken == authToken && config.cookies == cookies
    ensures config.urlParams.Keys == {"bl", "f.sid", "hl"} && "source-path" !in config.urlParams
  {
    Config(
      "notebooklm.google.com",
      "LabsTailwindUi",
      authToken,
      cookies,
      map[
        "content-type" := "application/x-www-form-urlencoded;charset=UTF-8",
        "origin" := "https://notebooklm.google.com",
        "referer" := "https://notebooklm.google.com/",
        "x-same-domain" := "1",
        "accept" := "*/*",
        "accept-language" := "en-US,en;q=0.9",
        "cache-control" := "no-cache",
        "pragma" := "no-cache"],
      map[
        "bl" := "boq_labs-tailwind-frontend_20241114.01_p0",
        "f.sid" := "-7121977511756781186",
        "hl" := "en"],
      false)
  }

  /** The page a call is made from: the notebook's page, or the root when there is no notebook. */
  function SourcePath(notebookId: string): (p: string)
    ensures notebookId == "" <==> p == "/"
    ensures notebookId != "" ==> |p| == 10 + |notebookId| && p[..10] == "/notebook/" && p[10..] == notebookId
  {
    if notebookId != "" then "/notebook/" + notebookId else "/"
  }

  /**
   * The per-call URL parameters: a fresh copy of the shared ones, then
   * `source-path`. The shared map is a value here, so it cannot change.
   */
  method CallParams(shared: map<string, string>, notebookId: string) returns (params: map<string, string>)
    ensures params.Keys == shared.Keys + {"source-path"}
    ensures params["source-path"] == SourcePath(notebookId)
    ensures forall k :: k in shared && k != "source-path" ==> params[k] == shared[k]
  {
    params := SetAll(map[], shared);
    if notebookId != "" {
      params := params["source-path" := "/notebook/" + notebookId];
    } else {
      params := params["source-path" := "/"];
    }
  }

  /** The batchexecute call a NotebookLM call becomes. */
  function RpcOf(call: Call, params: map<string, string>): (rpc: Rpc)
    ensures rpc.id == call.id && rpc.args == call.args && rpc.index == "generic" && rpc.urlParams == params
  {
    Rpc(call.id, call.args, "generic", params)
  }

  /** The payload of the first response, or the wrapped batchexecute error. */
  function DataOf(o: Result<Response, ExecError>): (r: Result<string, RpcError>)
    ensures o.Ok? <==> r.Ok?
    ensures o.Ok? ==> r.value == o.value.data
    ensures o.Err? ==> r.error == ExecuteRpc(o.error)
  {
    match o
    case Ok(resp) => Ok(resp.data)
    case Err(e) => Err(ExecuteRpc(e))
  }

  /**
   * What the server sees of a NotebookLM call: the shared parameters, except
   * that `source-path` is the call's and `rt`, `_reqid` are fixed; `rpcids`
   * is the call's id unless a shared parameter of that name overrides it.
   */
  lemma CallQuery(q: map<string, string>, shared: map<string, string>, call: Call,
                  params: map<string, string>, reqid: string)
    requires params.Keys == shared.Keys + {"source-path"}
    requires params["source-path"] == SourcePath(call.notebookId)
    requires forall k :: k in shared && k != "source-path" ==> params[k] == shared[k]
    requires QueryFor(q, shared, RpcOf(call, params), reqid)
    ensures q.Keys == shared.Keys + {"rpcids", "rt", "_reqid", "source-path"}
    ensures q["source-path"] == SourcePath(call.notebookId)
    ensures q["rt"] == "c" && q["_reqid"] == reqid
    ensures "rpcids" !in shared ==> q["rpcids"] == call.id
    ensures forall k :: k in shared && k !in {"rt", "_reqid", "source-path"} ==> q[k] == shared[k]
  {
  }

  /** The NotebookLM RPC client: its configuration and the batchexecute client built from it. */
  class RpcClient {
    const config: Config
    const client: Client

    /** rpc.New: the batchexecute client gets the same configuration. */
    constructor (authToken: string, cookies: string, reqid: ReqIdGenerator)
      ensures config == NotebookConfig(authToken, cookies)
      ensures client.config == config && client.reqid == reqid
      ensures fresh(client)
    {
      config := NotebookConfig(authToken, cookies);
      client := new Client(NotebookConfig(authToken, cookies), reqid);
    }

    /** Do: derives the per-call parameters, executes the call, and returns the first response's payload. */
    method Do(c: Codec, call: Call, exchange: HttpRequest -> HttpReply)
      returns (r: Result<string, RpcError>, sent: Option<HttpRequest>)
      requires client.config == config && client.reqid.Valid()
      modifies client.reqid
      ensures client.reqid.sequence == old(client.reqid.sequence) + 1
      ensures && sent.Some?
        && sent.value.url == Endpoint(config)
        && QueryFor(sent.value.query, config.urlParams,
                    RpcOf(call, config.urlParams["source-path" := SourcePath(call.notebookId)]),
                    Itoa(IdAt(client.reqid.base, old(client.reqid.sequence))))
        && sent.value.form == FormBody(c, [RpcData(c, RpcOf(call, map[]))], config.authToken)
        && r == DataOf(Outcome(c, exchange(sent.value)))
    {
      var params := CallParams(config.urlParams, call.notebookId);
      assert params == config.urlParams["source-path" := SourcePath(call.notebookId)];
      var rpc := RpcOf(call, params);
      var resp;
      resp, sent := client.Do(c, rpc, exchange);
      assert RpcData(c, rpc) == RpcData(c, RpcOf(call, map[]));
      r := DataOf(resp);
    }

    /** Heartbeat sends nothing and always succeeds. */
    method Heartbeat() returns (err: Option<RpcError>)
      ensures err.None?
    {
      err := None;
    }

    /** ListNotebooks: the recently-viewed-projects call, with no arguments and no notebook. */
    method ListNotebooks(c: Codec, exchange: HttpRequest -> HttpReply)
      returns (r: Result<string, RpcError>, sent: Option<HttpRequest>)
      requires client.config == config && client.reqid.Valid()
      modifies client.reqid
      ensures client.reqid.sequence == old(client.reqid.sequence) + 1
      ensures && sent.Some?
        && sent.value.form == FormBody(c, [Arr([Str(ListRecentlyViewedProjects), Str(c.marshal(Null)), Null, Str("generic")])], config.authToken)
        && "source-path" in sent.value.query && sent.value.query["source-path"] == "/"
        && ("rpcids" !in config.urlParams ==>
              "rpcids" in sent.value.query && sent.value.query["rpcids"] == ListRecentlyViewedProjects)
        && r == DataOf(Outcome(c, exchange(sent.value)))
    {
      var call := Call(ListRecentlyViewedProjects, None, "");
      r, sent := Do(c, call, exchange);
      CallQuery(sent.value.query, config.urlParams, call, config.urlParams["source-path" := "/"],
                Itoa(IdAt(client.reqid.base, old(client.reqid.sequence))));
    }

    /** CreateNotebook is a stub: it sends nothing and always fails. */
    method CreateNotebook(title: string) returns (r: Result<string, RpcError>)
      ensures r == Err(NotImplemented)
    {
      r := Err(NotImplemented);
    }

    /** DeleteNotebook is a stub: it sends nothing and always fails. */
    method DeleteNotebook(id: string) returns (err: Option<RpcError>)
      ensures err == Some(NotImplemented)
    {
      err := Some(NotImplemented);
    }
  }
}

=== FILE: wrappers.dfy ===
/** Option and Result, the failure-compatible wrappers the model uses for Go's `(value, error)` returns. */
module Wrappers {

  datatype Option<+T> = None | Some(value: T)

  datatype Result<+T, +E> = Ok(value: T) | Err(error: E) {
    predicate IsFailure() { Err? }

    function PropagateFailure<U>(): Result<U, E>
      requires Err?
    {
      Err(error)
    }

    function Extract(): T
      requires Ok?
    {
      value
    }
  }
}
